=== FILE: README.md ===
# Skeleton topology, chain blocks, shadow-shader selection and character actions

This project is a Dafny model of the core of a VR interaction engine (the
"Causality" library and one of its DirectX effects). It covers four pieces:

- **Skeleton topology** (`armature.dfy`, `bone.dfy`). A flat list of
  `(ID, ParentID, Name)` joint records becomes a `StaticArmature`. That is an
  arena of joints with dense IDs, parent links, child lists in insertion order,
  a root, and the depth-first, parent-before-child joint order the armature
  exposes through `joint_indices()` and `joints()`. The module also models the
  `JointSemantic` bit flags and the float layout of a `Bone`, with its local
  and global isometric views.
- **Chain blocks** (`armature_block.dfy`). `ShrinkChainToBlock` cuts the joint
  tree into maximal single-child chains, which form a tree of
  `KinematicBlock`s. `BlockArmature::SetArmature` numbers the blocks
  depth-first and records running joint offsets. `GetJointPermutationMatrix`
  builds the index vector that reorders `N * d` per-joint features into
  block order.
- **Shadow-map generation effect** (`shadow_map_generation.dfy`). It maps the
  configuration (weights per vertex, alpha-discard texture, fill mode) to one
  of 16 shader permutations. Two constant tables then pick one of 8 vertex
  shaders and one of 4 pixel shaders. The module also has the validating
  setters and the bone-palette upload.
- **Character action state machine** (`character.dfy`). It covers starting and
  stopping an animation, advancing the action time, the update lock that
  snapshots the previous frame, the sizing guards of the velocity frame, and
  the render flags.

The shared helper modules are `wrappers.dfy` (`Option`, `Result`) and
`seqs.dfy`. `seqs.dfy` defines distinctness, permutations of `0..m-1`,
concatenation, and the pigeonhole facts about them. Strided offsets are written
`Stride(n, w)`, which is `n * w` computed by repeated addition
(`Seqs.StrideIsProduct`); the slot of channel `c` of joint `k` is
`Stride(k, d) + c`.

Main results:

- **Order.** The armature's order lists every joint connected to the root
  exactly once, with the root first and each joint after its parent. When the
  whole skeleton hangs under the root, the order is a permutation of `0..n-1`.
  Cyclic parent chains and joints cut off from the root are allowed in the
  records; the order simply leaves those joints out.
- **Blocks.** Reading the blocks depth-first lists the joints in exactly the
  armature's order. So the blocks partition the joints, and the running offsets
  end at the joint count.
- **Permutation.** Slot `k*d + c` of the vector holds `indices[k]*d + c`. It is
  a permutation of `0..N*d-1` whenever the block order covers all joints, and
  with `d = 1` it is the block order itself. Joint positions the cache does
  not fill keep index 0, so a cache that misses two or more joints yields a
  vector with repeated values.
- **Shaders.** The shader permutation encodes the configuration one-to-one,
  and the tables choose the shader whose name matches it.

Where the code and its own comments or constants disagree, the model follows
the code:

- **Bone size.** The header declares `BoneWidth = 28` floats per bone
  (Causality/Armature.h:83), but the declared fields occupy 24 floats (see
  Findings).
- **Joint ParentID.** The `JointBasicData` and `Joint::ParentID()` comments say
  a root's ParentID is -1 (Causality/Armature.h:141, :191). The record-range
  constructor never copies the record's ParentID, so every joint, root or not,
  keeps the default -1 (see `Armature.BuiltJoints`).

## Model

| member | source | states |
|---|---|---|
| Armature.Flag | Causality/Armature.h:114-130 | `NoSemantic` is 0; every other semantic is a single bit; the side flags lie in the side mask and miss every body-part bit, and the body-part flags miss every side bit |
| Armature.FlagInjective | Causality/Armature.h:114-130 | two semantics with the same flag value are the same semantic |
| Armature.FlagsDisjoint | Causality/Armature.h:114-130 | two different semantics share no bit, so any combination of flags can be taken apart again |
| Armature.DefaultJoint | Causality/Armature.h:168-172 | a default-constructed joint has ID -1, ParentID -1 and an empty name |
| Armature.SetID | Causality/Armature.h:189 | only the ID changes; ParentID and name are kept |
| Armature.ParentOf | Causality/Armature.h:305-313 | a record is linked under its parent ID exactly when that ID is non-negative and not its own index; otherwise its link is -1 (root-like); a link is never the joint itself |
| Armature.ParentLinks | Causality/Armature.h:301-313 | one link per record, each -1 or another joint's index |
| Armature.ChildrenBelow | Causality/Armature.h:305-309 | a joint is in p's child list exactly when it was processed and its link is p, and the list runs in increasing index order (appending in record order) |
| Armature.LastRootBelow | Causality/Armature.h:310-313 | the stored root is a root-like record and no later record is root-like; it is absent only when no record is root-like |
| Armature.AddRecord | Causality/Armature.h:301-314 | one iteration of the constructor's loop extends everything built for records 0..i-1 to records 0..i: joint i gets its ID, it joins its parent's child list or becomes the root |
| Armature.FromRecords | Causality/Armature.h:295-317 | the record-range constructor builds exactly the arena, links, child lists, root and order described field by field |
| Armature.BuiltIsValid | Causality/Armature.h:295-317 | a constructed armature has dense IDs, child lists matching the links, a parentless root and its topological order |
| Armature.BuiltJoints | Causality/Armature.h:298-303 | joint i gets ID i, while its ParentID stays -1 and its Name stays empty whatever the record said |
| Armature.BuiltChildren | Causality/Armature.h:305-309 | c is a child of p exactly when record c names p as a parent other than itself, and siblings appear in increasing index order |
| Armature.BuiltRoot | Causality/Armature.h:310-313 | a root exists exactly when some record is root-like, and the stored one is the last such record |
| Armature.TopologyOrder | Causality/Armature.h:336-340 | the order is empty without a root and otherwise starts at the root |
| Armature.TopologyOrderValid | Causality/Armature.h:336-340 | the order starts at the root, lists no joint twice, puts every joint after its parent, and contains exactly the joints connected to the root |
| Armature.TopologyOrderIsPermutation | Causality/Armature.h:359 | when every joint is connected to the root, the order is a permutation of all joint indices |
| Armature.JointIndicesOrder | Causality/Armature.h:336-354 | for a constructed, connected skeleton, `joint_indices()` is a parent-first permutation starting at the root, and `joints()` yields joint `order[i]` at position i |
| Armature.At | Causality/Armature.h:252-255 | `at` returns the arena's joint at that index, which carries the index as its ID (the lookup itself is assumed; see "Left out") |
| Armature.Subscript | Causality/Armature.h:259-267 | `operator[]` returns the same joint as `at`, whose ID is the index |
| Armature.JointTree | Causality/Armature.h:236-246 | the tree under the root exists exactly when there is a root, and its depth-first walk is the armature's order |
| Armature.OrderedJoints | Causality/Armature.h:342-354 | `joints()` has one joint per order entry, and the i-th is the arena joint `Joints[order[i]]` itself, so it carries the i-th ordered ID |
| Bone.BoneOffsets | Causality/Armature.h:23-47 | with every vector and quaternion aligned to a 16-byte row, the fields sit at float offsets 0, 4, 7, 8, 11, 12, 16, 19, 20, 23 |
| Bone.BoneSlots | Causality/Armature.h:18-47 | the flattened bone has exactly the size the layout rule gives the struct |
| Bone.FieldAtItsOffset | Causality/Armature.h:23-47 | each field of the flattened bone is found at its layout offset |
| Bone.GlobalHalfFollowsIsometricTransform | Causality/Armature.h:92 | GblRotation sits at float 12, the size Armature.h:92 requires of IsometricTransform |
| Bone.LocalTransform | Causality/Armature.h:68-69 | reinterpreting the start of the bone gives the local rotation and translation |
| Bone.GlobalTransform | Causality/Armature.h:70-71 | reinterpreting the bone at the global rotation gives the global rotation and translation |
| Bone.BoneWidthAsWrittenOverrunsBone | Causality/Armature.h:83 | the declared width of 28 floats is 4 more than a bone occupies |
| Bone.BoneWidthMatchesLayout | Causality/Armature.h:83 | the corrected width, 24 floats, is exactly one bone |
| Bone.FrameSlotsAt | Causality/Armature.h:18-47 | bones of a frame stored back to back as their structs form a buffer of 24 floats per bone, with float k of bone i at `i*24 + k`: the stride a flat view must use |
| ArmatureBlock.ChainNodes | Causality/ArmatureBlock.cpp:33-39 | the chain starts at the joint, each next node is the sole child of the previous one, and the last node is a leaf or a branch point |
| ArmatureBlock.Shrink | Causality/ArmatureBlock.cpp:28-47 | a block's joints are the chain's joints in order, and it has one child block per child of the chain's last joint, in child order, each starting at that child |
| ArmatureBlock.ShrinkChainToBlock | Causality/ArmatureBlock.cpp:28-30 | a null joint yields no block; otherwise the block starts at the joint and has no child blocks exactly when its chain ends at a leaf |
| ArmatureBlock.ShrinkKeepsOrder | Causality/ArmatureBlock.cpp:28-47 | reading the blocks depth-first gives the joint tree's depth-first order, so every reachable joint is in exactly one block |
| ArmatureBlock.Blocks | Causality/ArmatureBlock.cpp:14 | `nodes()` starts at the block itself |
| ArmatureBlock.BlocksListJoints | Causality/ArmatureBlock.cpp:14 | concatenating the joint lists of the blocks in `nodes()` order gives the blocks' depth-first joint order |
| ArmatureBlock.SetArmature | Causality/ArmatureBlock.cpp:9-26 | the cache holds the blocks of the shrunk root in depth-first order, numbered 0, 1, 2, … and each with the joint count of all earlier blocks |
| ArmatureBlock.CacheBlocks | Causality/ArmatureBlock.cpp:13-20 | block i of the depth-first walk is cached with index i and the number of joints in the blocks before it |
| ArmatureBlock.BlockCacheCoversArmature | Causality/ArmatureBlock.cpp:13-20 | the cached blocks list the joints in exactly the armature's order; the last offset plus the last block's size is the number of ordered joints; for a connected skeleton the cache order is a permutation of all joints |
| ArmatureBlock.SetArmatureFitsIndexList | Causality/ArmatureBlock.cpp:56-66 | a cache set from a valid armature lists at most N joints, so the N-slot index vector holds the whole cache order |
| ArmatureBlock.JointIndexList | Causality/ArmatureBlock.cpp:56-67 | `indices` has N entries: the joint IDs in block-cache order, then zeros |
| ArmatureBlock.FeatureSlots | Causality/ArmatureBlock.cpp:69-71 | one column of the replicated matrix: entry c is `v*d + c` |
| ArmatureBlock.PermutationIndices | Causality/ArmatureBlock.cpp:69-77 | the column-major vector has `Stride(N, d)` entries, which is N*d |
| ArmatureBlock.PermutationIndicesSlot | Causality/ArmatureBlock.cpp:69-77 | slot (k, c) of the vector holds slot (`indices[k]`, c), so channel order within a joint is preserved |
| ArmatureBlock.PermutationIndicesBounded | Causality/ArmatureBlock.cpp:69-77 | when every index is below N, every slot value is below N*d |
| ArmatureBlock.PermutationIndicesDistinct | Causality/ArmatureBlock.cpp:69-77 | distinct indices give distinct slot values |
| ArmatureBlock.PermutationIndicesIsPermutation | Causality/ArmatureBlock.cpp:69-77 | a permutation of the N joints gives a permutation of the N*d slots |
| ArmatureBlock.PermutationIndicesUnitDim | Causality/ArmatureBlock.cpp:69-77 | with one channel the vector is the index list itself |
| ArmatureBlock.GetJointPermutationMatrix | Causality/ArmatureBlock.cpp:49-79 | the result has `Stride(N, d)` = N*d slots, slot (k, c) holds slot (k-th cached joint, c), slot (k, c) of an unfilled joint position k holds c (its index was left 0), it is a permutation when the cache order is one, a cache that misses two or more joints gives a vector with repeated values and so no permutation, and with d = 1 and full coverage it equals the cache order |
| ArmatureBlock.ChainShrinksToOneBlock | Causality/ArmatureBlock.cpp:28-47 | the chain 0-1-2 becomes a single block [0, 1, 2] with no children |
| ArmatureBlock.BranchShrinksToThreeBlocks | Causality/ArmatureBlock.cpp:28-47 | a root with two leaves becomes block [0] with child blocks [1] and [2], three blocks in all |
| ShadowMapGeneration.NewEffect | DirectX/Src/ShadowMapGenerationEffect.cpp:46-64 | a new effect has weights 0, depth fill, no texture and identity bones, hence permutation 0 |
| ShadowMapGeneration.ShaderPermutation | DirectX/Src/ShadowMapGenerationEffect.cpp:67-80 | any non-negative weight count gives a permutation in 0..15, and a count of 3 or above 4 falls back to base 0 (a negative count passes through as the base, as in the source) |
| ShadowMapGeneration.ShaderPermutationDecodes | DirectX/Src/ShadowMapGenerationEffect.cpp:67-80 | for a valid configuration the permutation is in 0..15, its low two bits give the weight-count slot (0, 1, 2, 4 map to 0, 1, 2, 3), bit 2 is set exactly with a texture, and bit 3 exactly under solid fill |
| ShadowMapGeneration.ShaderPermutationInjective | DirectX/Src/ShadowMapGenerationEffect.cpp:67-80 | two valid configurations share a permutation exactly when they agree on weights, texture presence and solid fill |
| ShadowMapGeneration.WeightsSlot | DirectX/Src/ShadowMapGenerationEffect.cpp:70-72 | the base permutation is the weight count's position in 0, 1, 2, 4 |
| ShadowMapGeneration.VertexShaderIndex | DirectX/Src/ShadowMapGenerationEffect.cpp:150-168 | the vertex-shader table maps permutation p to p mod 8 |
| ShadowMapGeneration.PixelShaderIndex | DirectX/Src/ShadowMapGenerationEffect.cpp:180-198 | the pixel-shader table maps permutation p to p div 4 |
| ShadowMapGeneration.VertexShaderOf | DirectX/Src/ShadowMapGenerationEffect.cpp:137-168 | the vertex shader applied (line 97) or returned by GetVertexShaderBytecode (lines 317-321) is the table's entry for the current permutation mod 8 |
| ShadowMapGeneration.PixelShaderOf | DirectX/Src/ShadowMapGenerationEffect.cpp:171-198 | the pixel shader applied (line 97) is the table's entry for the current permutation div 4 |
| ShadowMapGeneration.VertexShaderMatchesConfiguration | DirectX/Src/ShadowMapGenerationEffect.cpp:137-168 | the selected vertex shader is the one named for the weight count, with the Tex variant exactly when an alpha-discard texture is set |
| ShadowMapGeneration.PixelShaderMatchesConfiguration | DirectX/Src/ShadowMapGenerationEffect.cpp:137-198 | the selected pixel shader is the Color one exactly under solid fill and the Tex one exactly when an alpha-discard texture is set |
| ShadowMapGeneration.SetWeightsPerVertex | DirectX/Src/ShadowMapGenerationEffect.cpp:264-275 | accepted exactly for 0, 1, 2 or 4, which becomes the stored value; any other value raises the out-of-range error and stores nothing |
| ShadowMapGeneration.SetShadowFillMode | DirectX/Src/ShadowMapGenerationEffect.cpp:216-219 | only the fill mode changes, and the permutation changes by the solid-fill bit alone |
| ShadowMapGeneration.SetAlphaDiscardTexture | DirectX/Src/ShadowMapGenerationEffect.cpp:231-234 | only the texture changes, and the permutation changes by the texture bit alone |
| ShadowMapGeneration.DisableAlphaDiscard | DirectX/Src/ShadowMapGenerationEffect.cpp:236-239 | the texture is cleared, the permutation loses its +4, and a NoTex pixel shader is selected |
| ShadowMapGeneration.TransposeTo3x4 | DirectX/Src/ShadowMapGenerationEffect.cpp:285-287 | entry (row, col) of the stored constant is entry (col, row) of the matrix |
| ShadowMapGeneration.SetBoneTransforms | DirectX/Src/ShadowMapGenerationEffect.cpp:278-292 | more than MaxBones matrices raise the out-of-range error; otherwise exactly the first `count` bone constants become the transposed matrices and the rest are kept |
| ShadowMapGeneration.ResetBoneTransforms | DirectX/Src/ShadowMapGenerationEffect.cpp:295-307 | every bone constant becomes the identity and nothing else changes |
| ShadowMapGeneration.BonesDoNotAffectShaders | DirectX/Src/ShadowMapGenerationEffect.cpp:67-80 | the bone palette plays no part in shader selection |
| Character.CurrentActionName | Causality/CharacterObject.cpp:133 | "" when no action plays, the animation's name otherwise |
| Character.StartAction | Causality/CharacterObject.cpp:135-143 | succeeds exactly for a key of the behavior space, and then the action is that animation, the time is the begin time and the loop flag is recorded; an unknown key changes nothing |
| Character.StopAction | Causality/CharacterObject.cpp:145-150 | reports true and leaves no action, no looping and an empty action name |
| Character.MapCurrentFrameForUpdate | Causality/CharacterObject.cpp:106-111 | takes the lock, snapshots the current frame as the last frame and hands out the current frame |
| Character.ReleaseCurrentFrameForUpdate | Causality/CharacterObject.cpp:113-116 | drops the lock and changes nothing else |
| Character.MapReleaseSnapshots | Causality/CharacterObject.cpp:106-116 | map followed by release on an unlocked character changes only the last frame, which becomes the current frame |
| Character.UpdateAction | Causality/CharacterObject.cpp:170-176 | with no action nothing changes; with one, time advances by the delta, the old frame becomes the last frame, the current frame is the sample at the new time, the lock ends released, and nothing else changes |
| Character.ComputeVelocityFrame | Causality/CharacterObject.cpp:81-99 | nothing happens without a last frame; an empty velocity frame is first sized to the armature; each joint's linear velocity is computed from its current and last global translation, and everything else is kept; all of this is gathered as `VelocityFrameFrom` |
| Character.Update | Causality/CharacterObject.cpp:167-183 | the action time advances only while an action plays, the lock is released afterwards, and with auto-displacement off the result is the action part's; with it on, only the velocity frame differs from the action part's result, and that frame is exactly what ComputeVelocityFrame makes of it |
| Character.EnableAutoDisplacement | Causality/CharacterObject.cpp:257-261 | the auto-displacement switch takes the argument and the rest of the modelled state is kept (the speed filter is not modelled) |
| Character.GetRenderFlags | Causality/CharacterObject.cpp:191-196 | opaque is always set, and skinnable exactly when a skinning model is attached |
| Character.SetRenderModel | Causality/CharacterObject.cpp:156-165 | a mesh without the skinning interface raises, after the skinning model has already been cleared and with the render model unchanged; otherwise the mesh becomes both the render model and the skinning model, and nothing else changes |
| Character.RenderFlagsFollowModel | Causality/CharacterObject.cpp:191-196 | after a successful model change the character renders skinned exactly when a mesh was given |

## Left out

- Bone kinematics (`UpdateGlobalData`, `UpdateLocalData*`, `TransformMatrix`, dual quaternions) are declared without bodies and are quaternion float arithmetic.
- Floats are modelled as reals. Bone slots, matrices and velocities carry values but no rounding.
- Armature.TopologyOrder: `CaculateTopologyOrder` has no body in the source, and the only description of the order is "A topolical ordered joint index sequence" (Causality/Armature.h:336). Depth-first pre-order under the stored root, children in insertion order, is this model's choice; it matches `IArmature::joints()` walking `root()->nodes()` (Causality/Armature.h:236-246). A breadth-first order, or one that also covers other root-like joints, would fit the comment as well. Armature.TopologyOrderValid's parent-first and reachability facts, Armature.JointTree, ArmatureBlock.BlockCacheCoversArmature's "exactly the armature's order", and the statement that joints cut off from the root are left out of the order all depend on this choice.
- Armature.DefaultJoint: the default constructor leaves the name as `std::string`'s default, the empty string; the saliency fields it leaves uninitialised are not modelled.
- Armature.FromRecords: requires every parent ID to be below the record count, because the constructor indexes the joint array with it unchecked.
- Armature.FromRecords: when no record is root-like, the source leaves `RootIdx` uninitialised. The model records "no root" and an empty order.
- Bone.GlobalHalfFollowsIsometricTransform: the size of `DirectX::IsometricTransform` (12 floats) and its field order (rotation, then translation at float 4) are taken from the static assertion at Causality/Armature.h:92 and the views at Causality/Armature.h:68-71; the type is not defined in this code, so they are not derived from its fields.
- Bone.FrameSlotsAt: the frame type `AffineFrame` is only forward-declared (Causality/Armature.h:12); the model assumes its bones are stored back to back, which is what a flat view strided by the header's BoneWidth would need.
- Armature.TopologyOrder: the subtree is unfolded at most n levels. A depth bound proves this never cuts a subtree connected to the root.
- ArmatureBlock.SetArmature: requires a root, because the source dereferences the shrunk root without a null check. Only the constructor's single call on an empty cache is modelled; a repeated call would append to the cache.
- ArmatureBlock.JointIndexList: requires the cached joints to number at most N, because the source writes `indices[idx++]` unchecked.
- ArmatureBlock.GetJointPermutationMatrix: the slot values `indices[k]*feature_dim + c` (Causality/ArmatureBlock.cpp:70-71) are 32-bit `int`s in the source and unbounded here, so an overflow when N*d exceeds 2^31-1 is not modelled.
- Applying Eigen's `PermutationMatrix` to data is an external library's convention. Only the index vector is modelled.
- ArmatureBlock.ShrinkChainToBlock: the source also returns no block when `pJoint->is_null()` (Causality/ArmatureBlock.cpp:30); that member of the tree node type is not part of this model, and `is_null()` is assumed false for every joint of the armature.
- Armature.At: `StaticArmature::at`, `root()` and `size()` are declared without bodies (Causality/Armature.h:330-332); the model takes them to be `Joints[index]`, `Joints[RootIdx]` and `Joints.size()`. Armature.JointTree, ArmatureBlock.SetArmature and ArmatureBlock.GetJointPermutationMatrix rely on the same assumption.
- Joint names, `AssignSemanticsBasedOnName`, the deserialising constructors, `DynamicArmature`/`GraphArmature` and the saliency fields are declared without bodies or unused by the core.
- ShadowMapGeneration: `Apply`, `SetShadowMap`, `SetShadowColor`, `SetWorld`/`SetView`/`SetProjection`, the dirty flags and the shader bytecode are GPU state. The shaders are named by their bytecode identifiers.
- ShadowMapGeneration.TransposeTo3x4: `XMFLOAT3X4` and `XMStoreFloat3x4` are not defined in this code. The model assumes the store keeps the first three rows of its argument, as DirectXTK's skinned effect does with its bone palette, so the constant is the transpose's top three rows. DirectXMath's own `XMStoreFloat3x4` transposes on store; under that reading the upload would keep the matrix untransposed, which this model does not state.
- ShadowMapGeneration.MaxBones: the header that declares this effect's `MaxBones` is not part of this model. The value 72 is taken from the sibling shadow-map effect (DirectX/Inc/ShadowMapEffect.h:53).
- ShadowMapGeneration.SetBoneTransforms: the `count` parameter is the length of the matrix sequence, so a caller passing fewer matrices than `count` is not representable.
- Character.StartAction: the default arguments of `StartAction` and `StopAction` (Causality/CharacterObject.h:32-33: begin time 0, no loop, transition time 0) are not modelled; every argument is passed explicitly.
- Character.SetRenderModel: the level-of-detail argument `LoD` (Causality/CharacterObject.cpp:156) is passed on to `VisualObject::SetRenderModel`, which is outside this model, so it is left out.
- Character.EnableAutoDisplacement: the `m_SpeedFilter.Reset()` call (Causality/CharacterObject.cpp:260) is not modelled, because the speed filter is float filtering outside this model.
- Character.StartAction: the behavior space's lookup is not part of this model. An unknown key is taken as the null animation the source tests for. The transition time is accepted and ignored, as in the source.
- Character.Update: the ground displacement (`DisplaceByVelocityFrame`), the speed filter and the skinning-matrix upload are float vector arithmetic or calls outside this model. `SceneObject::Update` is outside this model.
- Character.UpdateAction: `GetFrameAt(m_CurrentFrame, m_CurrentActionTime)` (Causality/CharacterObject.cpp:174) writes into the existing frame and is not part of this model. The model replaces the frame with `sample(animation, time)`, which assumes the call reads nothing from the frame and overwrites all of it.
- Character.ComputeVelocityFrame: `vframe.resize(armature.size())` (Causality/CharacterObject.cpp:92) value-initialises the new `BoneVelocity` entries, whose `DirectX::Vector3` fields (Causality/Armature.h:95-101) are defined outside this code. The model assumes that initialisation gives zero vectors, which is what VelocityFrameFrom's zero angular velocity for a fresh entry rests on.
- Character.ComputeVelocityFrame: the finite difference is a function parameter, and division by a zero time step is not modelled.
- Character.ComputeVelocityFrame: requires the current and last frames, and a non-empty velocity frame, to hold at least one entry per joint, because the source indexes them by joint without a check. Character.Update passes the same requirement on for the frames the action part leaves behind.
- Character: there is no constructor. The source's constructor initialises only the auto-displacement flag and the speed filter.

## Findings

| source | as written | input that shows it | evidently intended | confidence | as-written member | corrected member |
|---|---|---|---|---|---|---|
| Causality/Armature.h:83 | `BoneWidth = 28` floats per bone | any `Bone`: its declared fields, aligned as declared, occupy 24 floats, so a buffer strided by 28 reads 4 floats past each bone | 24, the width of the fields left after `OriginPosition` was commented out (Armature.h:50-51) | not executed; medium, since the only reader shown is a commented-out Eigen map | Bone.BoneWidthAsWrittenOverrunsBone | Bone.BoneWidthMatchesLayout |

=== FILE: armature.dfy ===
/** The skeleton topology: joints in a flat arena addressed by dense integer IDs,
    parent/child links built from a list of (ID, ParentID, Name) records, a root,
    and the depth-first, parent-before-child joint order the armature exposes. */
module Armature {
  import opened Wrappers
  import opened Seqs

  // ---------------------------------------------------------------------------
  // Joint semantics
  // ---------------------------------------------------------------------------

  /** The semantic bit flags of a joint (the source spells mouth and nose
      "Mouse" and "Nouse"). */
  datatype JointSemantic =
    | NoSemantic
    | Hand | Wing | Foot | Tail | Mouse | Head | Eye | Nouse | Ear
    | Left | Right | Center
  {
    /** A side flag rather than a body part. */
    predicate IsSide()
    {
      Left? || Right? || Center?
    }
  }

  predicate IsSingleBit(v: bv32)
  {
    v != 0 && v & (v - 1) == 0
  }

  /** Union of the body-part flags. */
  const BodyPartMask: bv32 := 0x1FF
  /** Union of the side flags. */
  const SideMask: bv32 := 0x700_0000

  /** The numeric value of a semantic flag. */
  function Flag(s: JointSemantic): (v: bv32)
    ensures s.NoSemantic? <==> v == 0
    ensures !s.NoSemantic? ==> IsSingleBit(v)
    ensures s.IsSide() ==> v & BodyPartMask == 0 && v & SideMask == v
    ensures !s.IsSide() ==> v & SideMask == 0 && v & BodyPartMask == v
  {
    match s
    case NoSemantic => 0x0
    case Hand => 0x1
    case Wing => 0x2
    case Foot => 0x4
    case Tail => 0x8
    case Mouse => 0x10
    case Head => 0x20
    case Eye => 0x40
    case Nouse => 0x80
    case Ear => 0x100
    case Left => 0x100_0000
    case Right => 0x200_0000
    case Center => 0x400_0000
  }

  /** Distinct semantics have distinct flag values. */
  lemma FlagInjective(a: JointSemantic, b: JointSemantic)
    ensures Flag(a) == Flag(b) ==> a == b
  {
  }

  /** Distinct flags never share a bit, so any set of them can be combined and
      taken apart again. */
  lemma FlagsDisjoint(a: JointSemantic, b: JointSemantic)
    requires a != b
    ensures Flag(a) & Flag(b) == 0
  {
  }

  // ---------------------------------------------------------------------------
  // Joints and records
  // ---------------------------------------------------------------------------

  /** The identity data of a joint: its ID, its ParentID and its Name. */
  datatype JointBasicData = JointBasicData(id: int, parentId: int, name: string)

  /** A record handed to the constructor. */
  type JointRecord = JointBasicData

  /** A joint, as far as the armature's structure goes: the JointBasicData it
      derives from. */
  type Joint = JointBasicData

  /** A default-constructed joint: ID and ParentID are -1, the name is empty. */
  function DefaultJoint(): (j: Joint)
    ensures j.id == -1 && j.parentId == -1 && j.name == ""
  {
    JointBasicData(-1, -1, "")
  }

  /** Joint::SetID: only the ID changes. */
  function SetID(j: Joint, id: int): (r: Joint)
    ensures r.id == id && r.parentId == j.parentId && r.name == j.name
  {
    j.(id := id)
  }

  /** The constructor indexes the joint array with a record's parent ID without
      any bounds check, so every parent ID must be below the record count. */
  ghost predicate ParentsInRange(data: seq<JointRecord>)
  {
    forall i :: 0 <= i < |data| ==> data[i].parentId < |data|
  }

  /** The parent index the constructor links record `i` under, or -1 when the
      record is taken as the root (negative or self-referential parent ID). */
  function ParentOf(data: seq<JointRecord>, i: nat): (p: int)
    requires i < |data| && ParentsInRange(data)
    ensures -1 <= p < |data| && p != i
    ensures p == -1 <==> data[i].parentId < 0 || data[i].parentId == i
  {
    var parentId := data[i].parentId;
    if parentId != i && parentId >= 0 then parentId else -1
  }

  /** The parent link of every joint. */
  function ParentLinks(data: seq<JointRecord>): (pars: seq<int>)
    requires ParentsInRange(data)
    ensures |pars| == |data| && ValidLinks(pars)
    ensures forall i :: 0 <= i < |data| ==> pars[i] == ParentOf(data, i)
  {
    seq(|data|, i requires 0 <= i < |data| => ParentOf(data, i))
  }

  /** Parent links of an arena: each is -1 or another joint's index. */
  ghost predicate ValidLinks(pars: seq<int>)
  {
    forall i :: 0 <= i < |pars| ==> -1 <= pars[i] < |pars| && pars[i] != i
  }

  // ---------------------------------------------------------------------------
  // Children in insertion order
  // ---------------------------------------------------------------------------

  ghost predicate Increasing(s: seq<nat>)
  {
    forall i, j :: 0 <= i < j < |s| ==> s[i] < s[j]
  }

  /** The children of `p` among the first `i` joints, in the order the
      constructor appends them: increasing index. */
  function ChildrenBelow(pars: seq<int>, p: int, i: nat): (cs: seq<nat>)
    requires i <= |pars|
    ensures forall c: nat :: c in cs <==> c < i && pars[c] == p
    ensures Increasing(cs)
    ensures forall k :: 0 <= k < |cs| ==> cs[k] < i
  {
    if i == 0 then []
    else ChildrenBelow(pars, p, i - 1) + (if pars[i - 1] == p then [i - 1] else [])
  }

  /** The child list of `p`. */
  function ChildrenOf(pars: seq<int>, p: int): (cs: seq<nat>)
  {
    ChildrenBelow(pars, p, |pars|)
  }

  // ---------------------------------------------------------------------------
  // Ancestors
  // ---------------------------------------------------------------------------

  /** The ancestor `d` parent links above `x`; -1 once the chain has left the root. */
  function Anc(pars: seq<int>, x: int, d: nat): (a: int)
    requires ValidLinks(pars) && -1 <= x < |pars|
    ensures -1 <= a < |pars|
    decreases d
  {
    if d == 0 then x
    else if x < 0 then -1
    else Anc(pars, pars[x], d - 1)
  }

  lemma {:induction false} AncSplit(pars: seq<int>, x: int, a: nat, b: nat)
    requires ValidLinks(pars) && -1 <= x < |pars|
    ensures Anc(pars, x, a + b) == Anc(pars, Anc(pars, x, a), b)
    decreases a
  {
    if a == 0 {
    } else if x < 0 {
      assert Anc(pars, -1, b) == -1;
    } else {
      AncSplit(pars, pars[x], a - 1, b);
    }
  }

  /** A joint that lies on a cycle of parent links never reaches the top. */
  lemma {:induction false} CycleNeverEnds(pars: seq<int>, y: nat, p: nat, m: nat)
    requires ValidLinks(pars) && y < |pars|
    requires p >= 1 && Anc(pars, y, p) == y
    ensures Anc(pars, y, m) != -1
    decreases m
  {
    if m < p {
      if Anc(pars, y, m) == -1 {
        AncSplit(pars, y, m, p - m);
      }
    } else {
      AncSplit(pars, y, p, m - p);
      CycleNeverEnds(pars, y, p, m - p);
    }
  }

  /** If a child of `j` is a nearer ancestor of `x` than another child of `j`,
      the parent links lead from `j` back to `j`. */
  lemma AncestorCycle(pars: seq<int>, j: nat, c1: nat, c2: nat, x: nat, d1: nat, d2: nat)
    requires ValidLinks(pars) && j < |pars| && c1 < |pars| && c2 < |pars| && x < |pars|
    requires pars[c1] == j && pars[c2] == j
    requires Anc(pars, x, d1) == c1 && Anc(pars, x, d2) == c2 && d1 < d2
    ensures Anc(pars, j, d2 - d1) == j
  {
    AncSplit(pars, x, d1, 1);
    AncSplit(pars, x, d2, 1);
    AncSplit(pars, x, d1 + 1, d2 - d1);
  }

  /** Two children of a joint whose chain ends cannot both be ancestors of
      the same joint unless they are the same child. */
  lemma SiblingAncestorsEqual(pars: seq<int>, j: nat, c1: nat, c2: nat, x: nat, d1: nat, d2: nat, m: nat)
    requires ValidLinks(pars) && j < |pars| && c1 < |pars| && c2 < |pars| && x < |pars|
    requires pars[c1] == j && pars[c2] == j
    requires Anc(pars, x, d1) == c1 && Anc(pars, x, d2) == c2
    requires Anc(pars, j, m) == -1
    ensures c1 == c2
  {
    if d1 < d2 {
      AncestorCycle(pars, j, c1, c2, x, d1, d2);
      CycleNeverEnds(pars, j, d2 - d1, m);
    } else if d2 < d1 {
      AncestorCycle(pars, j, c2, c1, x, d2, d1);
      CycleNeverEnds(pars, j, d1 - d2, m);
    }
  }

  /** The list of the first `len` ancestors of `x`. */
  ghost function Chain(pars: seq<int>, x: nat, len: nat): (c: seq<nat>)
    requires ValidLinks(pars) && x < |pars|
    ensures |c| == len
    ensures forall i :: 0 <= i < len && Anc(pars, x, i) >= 0 ==> c[i] == Anc(pars, x, i)
  {
    seq(len, i requires 0 <= i < len => var a := Anc(pars, x, i); if a >= 0 then a else 0)
  }

  /** A joint reaches a parentless joint `r` in fewer steps than there are joints. */
  lemma DepthBound(pars: seq<int>, x: nat, r: nat, d: nat)
    requires ValidLinks(pars) && x < |pars| && r < |pars| && pars[r] == -1
    requires Anc(pars, x, d) == r
    ensures d < |pars|
  {
    forall i | 0 <= i <= d ensures Anc(pars, x, i) >= 0 {
      if Anc(pars, x, i) < 0 {
        AncSplit(pars, x, i, d - i);
      }
    }
    var c := Chain(pars, x, d + 1);
    AncSplit(pars, x, d, 1);
    assert Anc(pars, x, d + 1) == -1;
    forall i, k | 0 <= i < k < |c| ensures c[i] != c[k] {
      if c[i] == c[k] {
        var y := c[i];
        AncSplit(pars, x, i, k - i);
        AncSplit(pars, x, i, d + 1 - i);
        CycleNeverEnds(pars, y, k - i, d + 1 - i);
      }
    }
    DistinctBoundedLength(c, |pars|);
  }

  // ---------------------------------------------------------------------------
  // The joint tree and its depth-first order
  // ---------------------------------------------------------------------------

  /** A joint with its subtrees, children in insertion order. */
  datatype Tree = Node(id: nat, kids: seq<Tree>)

  /** Depth-first pre-order of a tree: a node, then each child's subtree in turn. */
  function Nodes(t: Tree): (ns: seq<nat>)
    decreases t, 1
  {
    [t.id] + NodesOf(t.kids)
  }

  function NodesOf(ts: seq<Tree>): (ns: seq<nat>)
    decreases ts, 0
  {
    if ts == [] then [] else Nodes(ts[0]) + NodesOf(ts[1..])
  }

  lemma {:induction false} NodesOfMember(ts: seq<Tree>, x: nat) returns (i: nat)
    requires x in NodesOf(ts)
    ensures i < |ts| && x in Nodes(ts[i])
    decreases |ts|
  {
    if x in Nodes(ts[0]) {
      i := 0;
    } else {
      var i' := NodesOfMember(ts[1..], x);
      i := i' + 1;
    }
  }

  lemma {:induction false} NodesOfContains(ts: seq<Tree>, i: nat, x: nat)
    requires i < |ts| && x in Nodes(ts[i])
    ensures x in NodesOf(ts)
    decreases |ts|
  {
    if i > 0 {
      NodesOfContains(ts[1..], i - 1, x);
    }
  }

  /** The tree hanging under joint `j`, followed at most `fuel` links down. */
  function Subtree(pars: seq<int>, j: nat, fuel: nat): (t: Tree)
    requires ValidLinks(pars) && j < |pars|
    decreases fuel
  {
    if fuel == 0 then Node(j, [])
    else
      var cs := ChildrenOf(pars, j);
      Node(j, seq(|cs|, i requires 0 <= i < |cs| => Subtree(pars, cs[i], fuel - 1)))
  }

  /** Everything in the subtree of `j` has `j` as an ancestor. */
  lemma {:induction false} SubtreeMember(pars: seq<int>, j: nat, fuel: nat, x: nat) returns (d: nat)
    requires ValidLinks(pars) && j < |pars|
    requires x in Nodes(Subtree(pars, j, fuel))
    ensures x < |pars| && d <= fuel && Anc(pars, x, d) == j
    decreases fuel
  {
    var t := Subtree(pars, j, fuel);
    if x == j {
      d := 0;
    } else {
      var i := NodesOfMember(t.kids, x);
      var cs := ChildrenOf(pars, j);
      var c := cs[i];
      var d' := SubtreeMember(pars, c, fuel - 1, x);
      AncSplit(pars, x, d', 1);
      d := d' + 1;
    }
  }

  /** Everything that has `j` as an ancestor within `fuel` links is in its subtree. */
  lemma {:induction false} SubtreeContains(pars: seq<int>, j: nat, fuel: nat, x: nat, d: nat)
    requires ValidLinks(pars) && j < |pars| && x < |pars|
    requires d <= fuel && Anc(pars, x, d) == j
    ensures x in Nodes(Subtree(pars, j, fuel))
    decreases d
  {
    var t := Subtree(pars, j, fuel);
    if d == 0 {
      assert Nodes(t)[0] == x;
    } else {
      var y := Anc(pars, x, d - 1);
      AncSplit(pars, x, d - 1, 1);
      assert y >= 0 && pars[y] == j;
      var cs := ChildrenOf(pars, j);
      assert y in cs;
      var i :| 0 <= i < |cs| && cs[i] == y;
      SubtreeContains(pars, y, fuel - 1, x, d - 1);
      assert t.kids[i] == Subtree(pars, y, fuel - 1);
      NodesOfContains(t.kids, i, x);
    }
  }

  /** Every joint of a subtree is a joint of the arena. */
  lemma SubtreeBounded(pars: seq<int>, j: nat, fuel: nat)
    requires ValidLinks(pars) && j < |pars|
    ensures Bounded(Nodes(Subtree(pars, j, fuel)), |pars|)
  {
    var s := Nodes(Subtree(pars, j, fuel));
    forall k | 0 <= k < |s| ensures s[k] < |pars| {
      var d := SubtreeMember(pars, j, fuel, s[k]);
    }
  }

  lemma DistinctAppend(a: seq<nat>, b: seq<nat>)
    requires Distinct(a) && Distinct(b)
    requires forall x :: x in a ==> x !in b
    ensures Distinct(a + b)
  {
    var s := a + b;
    forall i, j | 0 <= i < j < |s| ensures s[i] != s[j] {
      if j < |a| {
      } else if i >= |a| {
        assert s[i] == b[i - |a|] && s[j] == b[j - |a|];
      } else {
        assert s[i] in a && s[j] == b[j - |a|];
      }
    }
  }

  /** The subtree of a joint whose chain ends lists each joint once. */
  lemma {:induction false} SubtreeDistinct(pars: seq<int>, j: nat, fuel: nat, m: nat)
    requires ValidLinks(pars) && j < |pars|
    requires Anc(pars, j, m) == -1
    ensures Distinct(Nodes(Subtree(pars, j, fuel)))
    decreases fuel, 0, 0
  {
    var t := Subtree(pars, j, fuel);
    if fuel > 0 {
      var cs := ChildrenOf(pars, j);
      ForestDistinct(pars, j, cs, t.kids, fuel - 1, m);
      RootNotBelow(pars, j, fuel, m);
      DistinctAppend([j], NodesOf(t.kids));
    }
  }

  /** A joint whose chain ends is not among its own descendants. */
  lemma RootNotBelow(pars: seq<int>, j: nat, fuel: nat, m: nat)
    requires ValidLinks(pars) && j < |pars| && fuel > 0
    requires Anc(pars, j, m) == -1
    ensures j !in NodesOf(Subtree(pars, j, fuel).kids)
  {
    var t := Subtree(pars, j, fuel);
    var cs := ChildrenOf(pars, j);
    if j in NodesOf(t.kids) {
      var i := NodesOfMember(t.kids, j);
      var d := SubtreeMember(pars, cs[i], fuel - 1, j);
      AncSplit(pars, j, d, 1);
      CycleNeverEnds(pars, j, d + 1, m);
    }
  }

  /** The subtrees of distinct children of one joint never share a joint. */
  lemma {:induction false} ForestDistinct(pars: seq<int>, j: nat, cs: seq<nat>, ts: seq<Tree>, fuel: nat, m: nat)
    requires ValidLinks(pars) && j < |pars|
    requires Anc(pars, j, m) == -1
    requires |cs| == |ts| && Distinct(cs)
    requires forall i :: 0 <= i < |cs| ==> cs[i] < |pars| && pars[cs[i]] == j
    requires forall i :: 0 <= i < |ts| ==> ts[i] == Subtree(pars, cs[i], fuel)
    ensures Distinct(NodesOf(ts))
    decreases fuel, 1, |ts|
  {
    if ts != [] {
      var c := cs[0];
      AncSplit(pars, c, 1, m);
      SubtreeDistinct(pars, c, fuel, m + 1);
      assert Distinct(cs[1..]) by {
        forall a, b | 0 <= a < b < |cs| - 1 ensures cs[1..][a] != cs[1..][b] {
          assert cs[1..][a] == cs[a + 1] && cs[1..][b] == cs[b + 1];
        }
      }
      ForestDistinct(pars, j, cs[1..], ts[1..], fuel, m);
      forall x | x in Nodes(ts[0]) ensures x !in NodesOf(ts[1..]) {
        if x in NodesOf(ts[1..]) {
          var k := NodesOfMember(ts[1..], x);
          var d1 := SubtreeMember(pars, c, fuel, x);
          var d2 := SubtreeMember(pars, cs[k + 1], fuel, x);
          SiblingAncestorsEqual(pars, j, c, cs[k + 1], x, d1, d2, m);
        }
      }
      DistinctAppend(Nodes(ts[0]), NodesOf(ts[1..]));
    }
  }

  /** Every joint of `s` after the first is a joint of the arena whose parent
      appears earlier in `s`. */
  ghost predicate ParentFirst(pars: seq<int>, s: seq<nat>)
    requires ValidLinks(pars)
  {
    forall k :: 0 < k < |s| ==> s[k] < |pars| && pars[s[k]] in s[..k]
  }

  /** Every joint of `f` is a child of `j` or has its parent earlier in `f`. */
  ghost predicate ParentFirstUnder(pars: seq<int>, j: nat, f: seq<nat>)
    requires ValidLinks(pars)
  {
    forall k :: 0 <= k < |f| ==> f[k] < |pars| && (pars[f[k]] == j || pars[f[k]] in f[..k])
  }

  /** In a subtree's order every joint but the first comes after its parent. */
  lemma {:induction false} SubtreeParentFirst(pars: seq<int>, j: nat, fuel: nat)
    requires ValidLinks(pars) && j < |pars|
    ensures Nodes(Subtree(pars, j, fuel))[0] == j
    ensures ParentFirst(pars, Nodes(Subtree(pars, j, fuel)))
    decreases fuel, 0, 0
  {
    var t := Subtree(pars, j, fuel);
    var s := Nodes(t);
    if fuel > 0 {
      var cs := ChildrenOf(pars, j);
      ForestParentFirst(pars, j, cs, t.kids, fuel - 1);
      var f := NodesOf(t.kids);
      assert s == [j] + f;
      forall k | 0 < k < |s| ensures s[k] < |pars| && pars[s[k]] in s[..k] {
        assert s[k] == f[k - 1];
        assert s[..k] == [j] + f[..k - 1];
        if pars[s[k]] != j {
          var x := pars[s[k]];
          assert x in f[..k - 1];
        }
      }
    }
  }

  lemma {:induction false} ForestParentFirst(pars: seq<int>, j: nat, cs: seq<nat>, ts: seq<Tree>, fuel: nat)
    requires ValidLinks(pars) && j < |pars|
    requires |cs| == |ts|
    requires forall i :: 0 <= i < |cs| ==> cs[i] < |pars| && pars[cs[i]] == j
    requires forall i :: 0 <= i < |ts| ==> ts[i] == Subtree(pars, cs[i], fuel)
    ensures ParentFirstUnder(pars, j, NodesOf(ts))
    decreases fuel, 1, |ts|
  {
    if ts != [] {
      SubtreeParentFirst(pars, cs[0], fuel);
      ForestParentFirst(pars, j, cs[1..], ts[1..], fuel);
      assert NodesOf(ts) == Nodes(ts[0]) + NodesOf(ts[1..]);
      ParentFirstAppend(pars, j, Nodes(ts[0]), NodesOf(ts[1..]));
    }
  }

  lemma ParentFirstAppend(pars: seq<int>, j: nat, a: seq<nat>, b: seq<nat>)
    requires ValidLinks(pars)
    requires |a| > 0 && a[0] < |pars| && pars[a[0]] == j
    requires ParentFirst(pars, a) && ParentFirstUnder(pars, j, b)
    ensures ParentFirstUnder(pars, j, a + b)
  {
    var f := a + b;
    forall k | 0 <= k < |f| ensures f[k] < |pars| && (pars[f[k]] == j || pars[f[k]] in f[..k]) {
      if k < |a| {
        assert f[k] == a[k];
        assert f[..k] == a[..k];
      } else {
        assert f[k] == b[k - |a|];
        assert f[..k] == a + b[..k - |a|];
      }
    }
  }

  // ---------------------------------------------------------------------------
  // The topological order
  // ---------------------------------------------------------------------------

  /** The joint order of the armature: the depth-first pre-order of the tree
      hanging under the root, children visited in insertion order. */
  function TopologyOrder(pars: seq<int>, root: Option<nat>): (o: seq<nat>)
    requires ValidLinks(pars)
    requires root.Some? ==> root.value < |pars|
    ensures root.None? ==> o == []
    ensures root.Some? ==> |o| >= 1 && o[0] == root.value
  {
    match root
    case None => []
    case Some(r) => Nodes(Subtree(pars, r, |pars|))
  }

  /** Joint `x` is connected to `r` by parent links. */
  ghost predicate Reaches(pars: seq<int>, x: nat, r: nat)
    requires ValidLinks(pars) && x < |pars|
  {
    exists d: nat :: Anc(pars, x, d) == r
  }

  /** The order starts at the root, lists each joint once, puts every joint
      after its parent, and contains exactly the joints connected to the root. */
  lemma TopologyOrderValid(pars: seq<int>, r: nat)
    requires ValidLinks(pars) && r < |pars| && pars[r] == -1
    ensures var s := TopologyOrder(pars, Some(r));
      && s[0] == r
      && Distinct(s)
      && Bounded(s, |pars|)
      && ParentFirst(pars, s)
      && (forall x: nat :: x in s <==> x < |pars| && Reaches(pars, x, r))
  {
    var n := |pars|;
    var s := TopologyOrder(pars, Some(r));
    assert Anc(pars, r, 1) == -1;
    SubtreeDistinct(pars, r, n, 1);
    SubtreeParentFirst(pars, r, n);
    SubtreeBounded(pars, r, n);
    forall x: nat | x in s ensures x < n && Reaches(pars, x, r) {
      var d := SubtreeMember(pars, r, n, x);
    }
    forall x: nat | x < n && Reaches(pars, x, r) ensures x in s {
      var d: nat :| Anc(pars, x, d) == r;
      DepthBound(pars, x, r, d);
      SubtreeContains(pars, r, n, x, d);
    }
  }

  /** When every joint is connected to the root, the order is a permutation of
      all joint indices. */
  lemma TopologyOrderIsPermutation(pars: seq<int>, r: nat)
    requires ValidLinks(pars) && r < |pars| && pars[r] == -1
    requires forall x: nat :: x < |pars| ==> Reaches(pars, x, r)
    ensures IsPermutation(TopologyOrder(pars, Some(r)), |pars|)
  {
    var s := TopologyOrder(pars, Some(r));
    TopologyOrderValid(pars, r);
    CoveringDistinctIsPermutation(s, |pars|);
  }

  // ---------------------------------------------------------------------------
  // StaticArmature
  // ---------------------------------------------------------------------------

  /** The root index the constructor ends with after the first `i` records: the
      last root-like record, None when there is none. */
  function LastRootBelow(data: seq<JointRecord>, i: nat): (r: Option<nat>)
    requires i <= |data| && ParentsInRange(data)
    ensures r.Some? ==> r.value < i && ParentOf(data, r.value) == -1
    ensures r.Some? ==> forall k :: r.value < k < i ==> ParentOf(data, k) != -1
    ensures r.None? ==> forall k :: 0 <= k < i ==> ParentOf(data, k) != -1
  {
    if i == 0 then None
    else if ParentOf(data, i - 1) == -1 then Some(i - 1)
    else LastRootBelow(data, i - 1)
  }

  /** A built armature: the joint arena, the tree links, the root index and the
      topological order. */
  datatype StaticArmature = StaticArmature(
    joints: seq<Joint>,
    parents: seq<int>,
    children: seq<seq<nat>>,
    root: Option<nat>,
    order: seq<nat>)

  /** The shape every armature built from records has. */
  ghost predicate Valid(arm: StaticArmature)
  {
    && |arm.joints| == |arm.parents| == |arm.children|
    && ValidLinks(arm.parents)
    && (forall i :: 0 <= i < |arm.joints| ==> arm.joints[i].id == i)
    && (forall p :: 0 <= p < |arm.children| ==> arm.children[p] == ChildrenOf(arm.parents, p))
    && (arm.root.Some? ==> arm.root.value < |arm.parents| && arm.parents[arm.root.value] == -1)
    && arm.order == TopologyOrder(arm.parents, arm.root)
  }

  /** What the record-range constructor leaves behind, field by field: joint i
      carries ID i and nothing else of its record, the tree links follow
      ParentOf, the root is the last root-like record, and the order is the
      depth-first order under that root. */
  ghost predicate BuiltFrom(data: seq<JointRecord>, arm: StaticArmature)
    requires ParentsInRange(data)
  {
    var n := |data|;
    && |arm.joints| == n && |arm.children| == n
    && (forall i :: 0 <= i < n ==> arm.joints[i] == SetID(DefaultJoint(), i))
    && arm.parents == ParentLinks(data)
    && (forall p :: 0 <= p < n ==> arm.children[p] == ChildrenOf(arm.parents, p))
    && arm.root == LastRootBelow(data, n)
    && arm.order == TopologyOrder(arm.parents, arm.root)
  }

  /** The record-range constructor: for each record in turn, set the joint's ID,
      then append it as the last child of its parent when its parent ID is
      non-negative and not its own index, and otherwise make it the root; then
      compute the order. */
  method FromRecords(data: seq<JointRecord>) returns (arm: StaticArmature)
    requires ParentsInRange(data)
    ensures BuiltFrom(data, arm)
  {
    var n := |data|;
    var b := Builder(seq(n, _ => DefaultJoint()), [], seq(n, _ => []), None);
    for i := 0 to n
      invariant BuiltUpTo(data, b, i)
    {
      b := AddRecord(data, b, i);
    }
    assert ParentLinks(data)[..n] == ParentLinks(data);
    arm := StaticArmature(b.joints, b.links, b.children, b.root, TopologyOrder(b.links, b.root));
  }

  /** The constructor's state part-way through the records. */
  datatype Builder = Builder(joints: seq<Joint>, links: seq<int>, children: seq<seq<nat>>, root: Option<nat>)

  /** The state after the first `i` records: those joints have their IDs, the
      links and child lists cover exactly those records, and the root is the
      last root-like one among them. */
  ghost predicate BuiltUpTo(data: seq<JointRecord>, b: Builder, i: nat)
    requires ParentsInRange(data)
  {
    var n := |data|;
    var pars := ParentLinks(data);
    && i <= n
    && |b.joints| == n && |b.children| == n
    && (forall k :: 0 <= k < i ==> b.joints[k] == SetID(DefaultJoint(), k))
    && (forall k :: i <= k < n ==> b.joints[k] == DefaultJoint())
    && b.links == pars[..i]
    && (forall p :: 0 <= p < n ==> b.children[p] == ChildrenBelow(pars, p, i))
    && b.root == LastRootBelow(data, i)
  }

  /** One iteration of the constructor: set joint i's ID, then append it to its
      parent's children when its parent ID is non-negative and not its own
      index, and otherwise make it the root. */
  method AddRecord(data: seq<JointRecord>, b: Builder, i: nat) returns (b': Builder)
    requires ParentsInRange(data) && i < |data| && BuiltUpTo(data, b, i)
    ensures BuiltUpTo(data, b', i + 1)
  {
    ghost var pars := ParentLinks(data);
    var joints := b.joints[i := SetID(b.joints[i], i)];
    JointsStep(b.joints, joints, i);
    var parentId := data[i].parentId;
    if parentId != i && parentId >= 0 {
      var children := b.children[parentId := b.children[parentId] + [i]];
      ChildrenStepLinked(pars, i, b.children, children);
      b' := Builder(joints, b.links + [parentId], children, b.root);
    } else {
      ChildrenStepRoot(pars, i, b.children);
      b' := Builder(joints, b.links + [-1], b.children, Some(i));
    }
    assert b'.links == pars[..i + 1];
    assert b'.root == LastRootBelow(data, i + 1);
  }

  /** Setting joint i's ID extends the prefix of numbered joints by one. */
  lemma JointsStep(joints: seq<Joint>, joints': seq<Joint>, i: nat)
    requires i < |joints|
    requires forall k :: 0 <= k < i ==> joints[k] == SetID(DefaultJoint(), k)
    requires forall k :: i <= k < |joints| ==> joints[k] == DefaultJoint()
    requires joints' == joints[i := SetID(joints[i], i)]
    ensures |joints'| == |joints|
    ensures forall k :: 0 <= k < i + 1 ==> joints'[k] == SetID(DefaultJoint(), k)
    ensures forall k :: i + 1 <= k < |joints| ==> joints'[k] == DefaultJoint()
  {
  }

  /** A linked joint is appended to its parent's child list and to no other. */
  lemma ChildrenStepLinked(pars: seq<int>, i: nat, children: seq<seq<nat>>, children': seq<seq<nat>>)
    requires ValidLinks(pars) && i < |pars| && |children| == |pars| && pars[i] >= 0
    requires forall p :: 0 <= p < |pars| ==> children[p] == ChildrenBelow(pars, p, i)
    requires children' == children[pars[i] := children[pars[i]] + [i]]
    ensures forall p :: 0 <= p < |pars| ==> children'[p] == ChildrenBelow(pars, p, i + 1)
  {
  }

  /** A root-like joint is appended to no child list. */
  lemma ChildrenStepRoot(pars: seq<int>, i: nat, children: seq<seq<nat>>)
    requires ValidLinks(pars) && i < |pars| && |children| == |pars| && pars[i] < 0
    requires forall p :: 0 <= p < |pars| ==> children[p] == ChildrenBelow(pars, p, i)
    ensures forall p :: 0 <= p < |pars| ==> children[p] == ChildrenBelow(pars, p, i + 1)
  {
  }

  /** A constructed armature has the shape every armature has: dense IDs, child
      lists that match the parent links, a parentless root and the order. */
  lemma BuiltIsValid(data: seq<JointRecord>, arm: StaticArmature)
    requires ParentsInRange(data) && BuiltFrom(data, arm)
    ensures Valid(arm)
  {
  }

  /** The constructor keeps neither the record's name nor its parent ID in the
      joint: every joint has ID i, the default ParentID -1 and an empty name,
      whatever its record said. */
  lemma BuiltJoints(data: seq<JointRecord>, arm: StaticArmature, i: nat)
    requires ParentsInRange(data) && BuiltFrom(data, arm) && i < |data|
    ensures arm.joints[i].id == i
    ensures arm.joints[i].parentId == -1 && arm.joints[i].name == ""
  {
  }

  /** Joint c is in the child list of p exactly when p is c's parent, and every
      child list runs in increasing index order. */
  lemma BuiltChildren(data: seq<JointRecord>, arm: StaticArmature, p: nat)
    requires ParentsInRange(data) && BuiltFrom(data, arm) && p < |data|
    ensures forall c: nat :: c in arm.children[p] <==>
      c < |data| && 0 <= data[c].parentId && data[c].parentId != c && data[c].parentId == p
    ensures Increasing(arm.children[p])
  {
  }

  /** The stored root is the last record whose parent ID is negative or its own
      index; there is none exactly when every record names another parent. */
  lemma BuiltRoot(data: seq<JointRecord>, arm: StaticArmature)
    requires ParentsInRange(data) && BuiltFrom(data, arm)
    ensures arm.root.Some? <==>
      exists i :: 0 <= i < |data| && (data[i].parentId < 0 || data[i].parentId == i)
    ensures arm.root.Some? ==> var r := arm.root.value;
      && r < |data| && (data[r].parentId < 0 || data[r].parentId == r)
      && forall i :: r < i < |data| ==> 0 <= data[i].parentId && data[i].parentId != i
  {
    if arm.root.None? {
      forall i | 0 <= i < |data| ensures !(data[i].parentId < 0 || data[i].parentId == i) {
        assert ParentOf(data, i) != -1;
      }
    } else {
      var r := arm.root.value;
      forall i | r < i < |data| ensures 0 <= data[i].parentId && data[i].parentId != i {
        assert ParentOf(data, i) != -1;
      }
    }
  }

  /** IArmature::at: the joint stored at an index. */
  function At(arm: StaticArmature, index: int): (j: Joint)
    requires Valid(arm) && 0 <= index < |arm.joints|
    ensures j == arm.joints[index]
    ensures j.id == index
  {
    arm.joints[index]
  }

  /** IArmature::operator[]: delegates to at. */
  function Subscript(arm: StaticArmature, index: int): (j: Joint)
    requires Valid(arm) && 0 <= index < |arm.joints|
    ensures j == At(arm, index)
    ensures j.id == index
  {
    At(arm, index)
  }

  /** The joint tree under the root, as root()->nodes() walks it. */
  function JointTree(arm: StaticArmature): (t: Option<Tree>)
    requires Valid(arm)
    ensures t.Some? <==> arm.root.Some?
    ensures t.Some? ==> Nodes(t.value) == arm.order
  {
    match arm.root
    case None => None
    case Some(r) => Some(Subtree(arm.parents, r, |arm.parents|))
  }

  /** StaticArmature::joints(): the joints in topological order. */
  function OrderedJoints(arm: StaticArmature): (js: seq<Joint>)
    requires Valid(arm)
    ensures |js| == |arm.order|
    ensures forall i :: 0 <= i < |js| ==> js[i].id == arm.order[i]
    ensures forall i :: 0 <= i < |js| ==> arm.order[i] < |arm.joints| && js[i] == arm.joints[arm.order[i]]
  {
    OrderBounded(arm);
    seq(|arm.order|, i requires 0 <= i < |arm.order| => arm.joints[arm.order[i]])
  }

  lemma OrderBounded(arm: StaticArmature)
    requires Valid(arm)
    ensures Bounded(arm.order, |arm.joints|)
  {
    if arm.root.Some? {
      TopologyOrderValid(arm.parents, arm.root.value);
    }
  }

  /** joint_indices() of a built armature whose joints all hang under the root:
      a permutation of 0..n-1 that starts at the root and lists every joint
      after its parent, and joints() yields the joints in that order. */
  lemma JointIndicesOrder(data: seq<JointRecord>, arm: StaticArmature)
    requires ParentsInRange(data) && BuiltFrom(data, arm) && arm.root.Some?
    requires forall x: nat :: x < |data| ==> Reaches(arm.parents, x, arm.root.value)
    ensures IsPermutation(arm.order, |data|)
    ensures arm.order[0] == arm.root.value
    ensures ParentFirst(arm.parents, arm.order)
    ensures forall i :: 0 <= i < |data| ==> OrderedJoints(arm)[i] == JointBasicData(arm.order[i], -1, "")
  {
    BuiltIsValid(data, arm);
    TopologyOrderValid(arm.parents, arm.root.value);
    TopologyOrderIsPermutation(arm.parents, arm.root.value);
  }
}

=== FILE: armature_block.dfy ===
/** The chain decomposition of an armature: the joint tree cut into maximal
    unbranching chains ("kinematic blocks") that form a tree of their own, the
    depth-first numbering of the blocks with running joint offsets, and the
    index vector that reorders per-joint feature vectors into block order. */
module ArmatureBlock {
  import opened Wrappers
  import opened Seqs
  import opened Armature

  // ---------------------------------------------------------------------------
  // Blocks
  // ---------------------------------------------------------------------------

  /** A chain of joints and the blocks that hang from its last joint. */
  datatype KinematicBlock = KinematicBlock(joints: seq<nat>, kids: seq<KinematicBlock>)

  /** The nodes the chain walk of ShrinkChainToBlock visits from `t`: the node
      itself, then its first child for as long as that child has no next
      sibling, i.e. for as long as the current node has exactly one child. */
  function ChainNodes(t: Tree): (ns: seq<Tree>)
    ensures |ns| >= 1 && ns[0] == t
    ensures forall k :: 0 <= k < |ns| - 1 ==> |ns[k].kids| == 1 && ns[k + 1] == ns[k].kids[0]
    ensures |ns[|ns| - 1].kids| != 1
  {
    if |t.kids| == 1 then [t] + ChainNodes(t.kids[0]) else [t]
  }

  /** ShrinkChainToBlock on a joint: the chain's joints, then one child block per
      child of the chain's last joint, in child order. */
  function Shrink(t: Tree): (b: KinematicBlock)
    ensures var ns := ChainNodes(t);
      && |b.joints| == |ns|
      && (forall k :: 0 <= k < |ns| ==> b.joints[k] == ns[k].id)
      && |b.kids| == |ns[|ns| - 1].kids|
      && (forall i :: 0 <= i < |b.kids| ==>
            |b.kids[i].joints| >= 1 && b.kids[i].joints[0] == ns[|ns| - 1].kids[i].id)
  {
    if |t.kids| == 1 then
      var b := Shrink(t.kids[0]);
      KinematicBlock([t.id] + b.joints, b.kids)
    else
      KinematicBlock([t.id], seq(|t.kids|, i requires 0 <= i < |t.kids| => Shrink(t.kids[i])))
  }

  /** ShrinkChainToBlock: a null joint yields no block. */
  function ShrinkChainToBlock(joint: Option<Tree>): (b: Option<KinematicBlock>)
    ensures b.Some? <==> joint.Some?
    ensures b.Some? ==> |b.value.joints| >= 1 && b.value.joints[0] == joint.value.id
    ensures b.Some? ==> (b.value.kids == [] <==> ChainNodes(joint.value)[|ChainNodes(joint.value)| - 1].kids == [])
  {
    match joint
    case None => None
    case Some(t) => Some(Shrink(t))
  }

  /** The joints of a block tree, block by block in depth-first block order. */
  function BlockJoints(b: KinematicBlock): (js: seq<nat>)
    decreases b, 1
  {
    b.joints + BlockJointsOf(b.kids)
  }

  function BlockJointsOf(bs: seq<KinematicBlock>): (js: seq<nat>)
    decreases bs, 0
  {
    if bs == [] then [] else BlockJoints(bs[0]) + BlockJointsOf(bs[1..])
  }

  /** Reading the blocks in depth-first order lists the joints in the joint
      tree's own depth-first order: the blocks cut that order into pieces and
      neither drop, repeat nor reorder a joint. */
  lemma {:induction false} ShrinkKeepsOrder(t: Tree)
    ensures BlockJoints(Shrink(t)) == Nodes(t)
    decreases t, 1
  {
    if |t.kids| == 1 {
      var b := Shrink(t.kids[0]);
      ShrinkKeepsOrder(t.kids[0]);
      assert NodesOf(t.kids) == Nodes(t.kids[0]) + NodesOf(t.kids[1..]);
      assert t.kids[1..] == [];
    } else {
      var bs := seq(|t.kids|, i requires 0 <= i < |t.kids| => Shrink(t.kids[i]));
      ShrinkForestKeepsOrder(t.kids, bs);
    }
  }

  lemma {:induction false} ShrinkForestKeepsOrder(ts: seq<Tree>, bs: seq<KinematicBlock>)
    requires |bs| == |ts| && forall i :: 0 <= i < |ts| ==> bs[i] == Shrink(ts[i])
    ensures BlockJointsOf(bs) == NodesOf(ts)
    decreases ts, 0
  {
    if ts != [] {
      ShrinkKeepsOrder(ts[0]);
      ShrinkForestKeepsOrder(ts[1..], bs[1..]);
    }
  }

  /** The blocks of a block tree in depth-first order, as nodes() visits them. */
  function Blocks(b: KinematicBlock): (bs: seq<KinematicBlock>)
    ensures |bs| >= 1 && bs[0] == b
    decreases b, 1
  {
    [b] + BlocksOf(b.kids)
  }

  function BlocksOf(bs: seq<KinematicBlock>): (r: seq<KinematicBlock>)
    decreases bs, 0
  {
    if bs == [] then [] else Blocks(bs[0]) + BlocksOf(bs[1..])
  }

  function JointLists(bs: seq<KinematicBlock>): (ls: seq<seq<nat>>)
    ensures |ls| == |bs| && forall i :: 0 <= i < |bs| ==> ls[i] == bs[i].joints
  {
    seq(|bs|, i requires 0 <= i < |bs| => bs[i].joints)
  }

  /** Concatenating the joint lists of the blocks in depth-first block order
      gives BlockJoints. */
  lemma {:induction false} BlocksListJoints(b: KinematicBlock)
    ensures Concat(JointLists(Blocks(b))) == BlockJoints(b)
    decreases b, 1
  {
    BlocksOfListJoints(b.kids);
    assert JointLists(Blocks(b)) == [b.joints] + JointLists(BlocksOf(b.kids));
  }

  lemma {:induction false} BlocksOfListJoints(bs: seq<KinematicBlock>)
    ensures Concat(JointLists(BlocksOf(bs))) == BlockJointsOf(bs)
    decreases bs, 0
  {
    if bs != [] {
      BlocksListJoints(bs[0]);
      BlocksOfListJoints(bs[1..]);
      assert JointLists(BlocksOf(bs)) == JointLists(Blocks(bs[0])) + JointLists(BlocksOf(bs[1..]));
      ConcatSplit(JointLists(Blocks(bs[0])), JointLists(BlocksOf(bs[1..])));
    }
  }

  // ---------------------------------------------------------------------------
  // BlockArmature
  // ---------------------------------------------------------------------------

  /** A cached block: its joints, its Index and its AccumulatedJointCount. */
  datatype CachedBlock = CachedBlock(joints: seq<nat>, index: nat, accumulated: nat)

  /** The block tree of an armature and the flat block cache. */
  datatype BlockArmature = BlockArmature(
    armatureSize: nat,
    root: KinematicBlock,
    cache: seq<CachedBlock>)

  /** Number of joints in the first `i` blocks of `bs`. */
  function CountBefore(bs: seq<KinematicBlock>, i: nat): (n: nat)
    requires i <= |bs|
  {
    if i == 0 then 0 else CountBefore(bs, i - 1) + |bs[i - 1].joints|
  }

  lemma {:induction false} CountBeforeIsConcatLength(bs: seq<KinematicBlock>, i: nat)
    requires i <= |bs|
    ensures CountBefore(bs, i) == |Concat(JointLists(bs[..i]))|
  {
    if i > 0 {
      CountBeforeIsConcatLength(bs, i - 1);
      assert JointLists(bs[..i]) == JointLists(bs[..i - 1]) + [bs[i - 1].joints];
      ConcatAppend(JointLists(bs[..i - 1]), bs[i - 1].joints);
    }
  }

  /** The joint order of the block cache. */
  function CacheOrder(cache: seq<CachedBlock>): (s: seq<nat>)
  {
    if cache == [] then [] else cache[0].joints + CacheOrder(cache[1..])
  }

  /** What SetArmature leaves behind on a fresh BlockArmature: the block tree
      shrunk from the root joint, and one cache entry per block in depth-first
      block order with consecutive indices and running joint offsets. */
  ghost predicate SetFrom(arm: StaticArmature, ba: BlockArmature)
    requires Valid(arm)
  {
    var blocks := Blocks(ba.root);
    && arm.root.Some?
    && ba.armatureSize == |arm.joints|
    && ba.root == Shrink(JointTree(arm).value)
    && |ba.cache| == |blocks|
    && (forall i :: 0 <= i < |blocks| ==> ba.cache[i].joints == blocks[i].joints)
    && (forall i :: 0 <= i < |blocks| ==> ba.cache[i].index == i)
    && (forall i :: 0 <= i < |blocks| ==> ba.cache[i].accumulated == CountBefore(blocks, i))
  }

  /** BlockArmature's constructor, i.e. SetArmature on an empty cache: shrink the
      root joint into a block tree, then walk the blocks depth-first, caching
      each with the next index and the number of joints cached before it. */
  method SetArmature(arm: StaticArmature) returns (ba: BlockArmature)
    requires Valid(arm) && arm.root.Some?
    ensures SetFrom(arm, ba)
  {
    var root := Shrink(JointTree(arm).value);
    var cache := CacheBlocks(Blocks(root));
    ba := BlockArmature(|arm.joints|, root, cache);
  }

  /** The loop of SetArmature: cache the blocks in order, each with the next
      index and the number of joints cached before it. */
  method CacheBlocks(blocks: seq<KinematicBlock>) returns (cache: seq<CachedBlock>)
    ensures |cache| == |blocks|
    ensures forall i {:trigger cache[i]} :: 0 <= i < |blocks| ==>
      cache[i] == CachedBlock(blocks[i].joints, i, CountBefore(blocks, i))
  {
    cache := [];
    var idx := 0;
    var accumIdx := 0;
    for i := 0 to |blocks|
      invariant |cache| == i && idx == i
      invariant accumIdx == CountBefore(blocks, i)
      invariant forall k {:trigger cache[k]} :: 0 <= k < i ==> cache[k] == CachedBlock(blocks[k].joints, k, CountBefore(blocks, k))
    {
      cache := cache + [CachedBlock(blocks[i].joints, idx, accumIdx)];
      idx := idx + 1;
      accumIdx := accumIdx + |blocks[i].joints|;
    }
  }

  lemma {:induction false} CacheOrderOfBlocks(cache: seq<CachedBlock>, blocks: seq<KinematicBlock>)
    requires |cache| == |blocks|
    requires forall i :: 0 <= i < |blocks| ==> cache[i].joints == blocks[i].joints
    ensures CacheOrder(cache) == Concat(JointLists(blocks))
  {
    if cache != [] {
      CacheOrderOfBlocks(cache[1..], blocks[1..]);
      assert JointLists(blocks)[1..] == JointLists(blocks[1..]);
    }
  }

  /** The block cache lists the joints in exactly the armature's topological
      order, so for a single connected skeleton every joint is in exactly one
      block, and the running offsets end at the joint count. */
  lemma BlockCacheCoversArmature(arm: StaticArmature, ba: BlockArmature)
    requires Valid(arm) && SetFrom(arm, ba)
    ensures CacheOrder(ba.cache) == arm.order
    ensures var last := ba.cache[|ba.cache| - 1];
      last.accumulated + |last.joints| == |arm.order|
    ensures (forall x: nat :: x < |arm.joints| ==> Reaches(arm.parents, x, arm.root.value)) ==>
      IsPermutation(CacheOrder(ba.cache), ba.armatureSize)
  {
    var blocks := Blocks(ba.root);
    assert CacheOrder(ba.cache) == arm.order by {
      CacheOrderOfBlocks(ba.cache, blocks);
      BlocksListJoints(ba.root);
      ShrinkKeepsOrder(JointTree(arm).value);
    }
    var n := |blocks|;
    assert CountBefore(blocks, n) == |arm.order| by {
      CountBeforeIsConcatLength(blocks, n);
      assert blocks[..n] == blocks;
      CacheOrderOfBlocks(ba.cache, blocks);
    }
    assert CountBefore(blocks, n) == CountBefore(blocks, n - 1) + |blocks[n - 1].joints|;
    if forall x: nat :: x < |arm.joints| ==> Reaches(arm.parents, x, arm.root.value) {
      TopologyOrderIsPermutation(arm.parents, arm.root.value);
    }
  }

  /** A cache set from a valid armature never lists more joints than the
      armature has, so GetJointPermutationMatrix's index vector of N slots
      holds the whole cache order. */
  lemma SetArmatureFitsIndexList(arm: StaticArmature, ba: BlockArmature)
    requires Valid(arm) && SetFrom(arm, ba)
    ensures |CacheOrder(ba.cache)| <= ba.armatureSize
  {
    BlockCacheCoversArmature(arm, ba);
    TopologyOrderValid(arm.parents, arm.root.value);
    DistinctBoundedLength(arm.order, |arm.parents|);
  }

  // ---------------------------------------------------------------------------
  // The joint permutation
  // ---------------------------------------------------------------------------

  /** The `indices` vector: N slots, filled with the joint IDs in block-cache
      order; slots past the cached joints keep their initial zero. Each joint's
      ID is its index in the arena. */
  method JointIndexList(ba: BlockArmature) returns (indices: seq<nat>)
    requires |CacheOrder(ba.cache)| <= ba.armatureSize
    ensures |indices| == ba.armatureSize
    ensures indices[..|CacheOrder(ba.cache)|] == CacheOrder(ba.cache)
    ensures forall k :: |CacheOrder(ba.cache)| <= k < |indices| ==> indices[k] == 0
  {
    var n := ba.armatureSize;
    indices := seq(n, _ => 0);
    var idx := 0;
    ghost var done: seq<nat> := [];
    for b := 0 to |ba.cache|
      invariant CacheOrder(ba.cache) == done + CacheOrder(ba.cache[b..])
      invariant idx == |done| && idx <= n && |indices| == n
      invariant indices[..idx] == done
      invariant forall k :: idx <= k < n ==> indices[k] == 0
    {
      var joints := ba.cache[b].joints;
      assert CacheOrder(ba.cache[b..]) == joints + CacheOrder(ba.cache[b + 1..]);
      for j := 0 to |joints|
        invariant idx == |done| + j && idx <= n && |indices| == n
        invariant indices[..idx] == done + joints[..j]
        invariant forall k :: idx <= k < n ==> indices[k] == 0
      {
        indices := indices[idx := joints[j]];
        idx := idx + 1;
        assert joints[..j + 1] == joints[..j] + [joints[j]];
      }
      done := done + joints;
    }
  }

  /** The slot of channel `c` of the `k`-th joint in a vector of `d` channels
      per joint: k * d + c. */
  function SlotIndex(k: nat, c: nat, d: nat): (s: nat)
  {
    Stride(k, d) + c
  }

  /** Column `k` of the replicated index matrix: joint `v`'s `d` feature slots. */
  function FeatureSlots(v: nat, d: nat): (col: seq<nat>)
    ensures |col| == d && forall c :: 0 <= c < d ==> col[c] == SlotIndex(v, c, d)
  {
    seq(d, c requires 0 <= c < d => SlotIndex(v, c, d))
  }

  /** The replicated, scaled and offset index matrix read in column-major order:
      the columns of all joints, one after another. */
  function PermutationIndices(indices: seq<nat>, d: nat): (r: seq<nat>)
    ensures |r| == Stride(|indices|, d)
  {
    if indices == [] then []
    else FeatureSlots(indices[0], d) + PermutationIndices(indices[1..], d)
  }

  /** Slot (k, c) of the permutation holds slot (indices[k], c). */
  lemma {:induction false} PermutationIndicesSlot(indices: seq<nat>, d: nat, k: nat, c: nat)
    requires k < |indices| && c < d
    ensures SlotIndex(k, c, d) < |PermutationIndices(indices, d)|
    ensures PermutationIndices(indices, d)[SlotIndex(k, c, d)] == SlotIndex(indices[k], c, d)
  {
    if k > 0 {
      PermutationIndicesSlot(indices[1..], d, k - 1, c);
    }
  }

  /** Every slot of the permutation is slot (k, c) of some joint position k. */
  lemma {:induction false} PermutationIndicesPosition(indices: seq<nat>, d: nat, s: nat) returns (k: nat, c: nat)
    requires s < |PermutationIndices(indices, d)|
    ensures k < |indices| && c < d && s == SlotIndex(k, c, d)
  {
    if s < d {
      k, c := 0, s;
    } else {
      var k', c' := PermutationIndicesPosition(indices[1..], d, s - d);
      k, c := k' + 1, c';
    }
  }

  /** Slots of different joints never meet. */
  lemma SlotIndexInjective(a: nat, c: nat, b: nat, c': nat, d: nat)
    requires c < d && c' < d && (a != b || c != c')
    ensures SlotIndex(a, c, d) != SlotIndex(b, c', d)
  {
    if a < b {
      StrideMono(a, b, d);
    } else if b < a {
      StrideMono(b, a, d);
    }
  }

  /** The slots of joints below n lie below n*d. */
  lemma SlotBelow(v: nat, c: nat, d: nat, n: nat)
    requires v < n && c < d
    ensures SlotIndex(v, c, d) < Stride(n, d)
  {
    StrideMono(v, n, d);
  }

  lemma PermutationIndicesBounded(indices: seq<nat>, d: nat)
    requires Bounded(indices, |indices|)
    ensures Bounded(PermutationIndices(indices, d), Stride(|indices|, d))
  {
    var r := PermutationIndices(indices, d);
    forall s | 0 <= s < |r| ensures r[s] < Stride(|indices|, d) {
      var k, c := PermutationIndicesPosition(indices, d, s);
      PermutationIndicesSlot(indices, d, k, c);
      SlotBelow(indices[k], c, d, |indices|);
    }
  }

  lemma PermutationIndicesDistinct(indices: seq<nat>, d: nat)
    requires Distinct(indices)
    ensures Distinct(PermutationIndices(indices, d))
  {
    var r := PermutationIndices(indices, d);
    forall s, s' | 0 <= s < s' < |r| ensures r[s] != r[s'] {
      var k, c := PermutationIndicesPosition(indices, d, s);
      var k', c' := PermutationIndicesPosition(indices, d, s');
      PermutationIndicesSlot(indices, d, k, c);
      PermutationIndicesSlot(indices, d, k', c');
      SlotIndexInjective(indices[k], c, indices[k'], c', d);
    }
  }

  /** When the indices are a permutation of the N joints, the slot vector is a
      permutation of the N*d feature slots. */
  lemma PermutationIndicesIsPermutation(indices: seq<nat>, d: nat)
    requires IsPermutation(indices, |indices|)
    ensures IsPermutation(PermutationIndices(indices, d), Stride(|indices|, d))
  {
    PermutationIndicesBounded(indices, d);
    PermutationIndicesDistinct(indices, d);
  }

  /** With one feature channel the slot vector is the index list itself. */
  lemma {:induction false} PermutationIndicesUnitDim(indices: seq<nat>)
    ensures PermutationIndices(indices, 1) == indices
  {
    if indices != [] {
      PermutationIndicesUnitDim(indices[1..]);
      StrideIsProduct(indices[0], 1);
      assert FeatureSlots(indices[0], 1) == [indices[0]];
    }
  }

  /** GetJointPermutationMatrix: the index vector of length N*d whose slot
      (k, c) holds slot (indices[k], c), where indices lists the joint IDs in
      block-cache order. */
  method GetJointPermutationMatrix(ba: BlockArmature, featureDim: nat) returns (perm: seq<nat>)
    requires |CacheOrder(ba.cache)| <= ba.armatureSize
    ensures |perm| == Stride(ba.armatureSize, featureDim)
    ensures forall k: nat, c: nat :: k < |CacheOrder(ba.cache)| && c < featureDim ==>
      SlotIndex(k, c, featureDim) < |perm| &&
      perm[SlotIndex(k, c, featureDim)] == SlotIndex(CacheOrder(ba.cache)[k], c, featureDim)
    ensures forall k: nat, c: nat :: |CacheOrder(ba.cache)| <= k < ba.armatureSize && c < featureDim ==>
      SlotIndex(k, c, featureDim) < |perm| && perm[SlotIndex(k, c, featureDim)] == c
    ensures 1 <= featureDim && |CacheOrder(ba.cache)| + 2 <= ba.armatureSize ==> !Distinct(perm)
    ensures IsPermutation(CacheOrder(ba.cache), ba.armatureSize) ==>
      IsPermutation(perm, Stride(ba.armatureSize, featureDim))
    ensures featureDim == 1 && |CacheOrder(ba.cache)| == ba.armatureSize ==>
      perm == CacheOrder(ba.cache)
  {
    var indices := JointIndexList(ba);
    perm := PermutationIndices(indices, featureDim);
    var order := CacheOrder(ba.cache);
    forall k: nat, c: nat | k < |order| && c < featureDim
      ensures SlotIndex(k, c, featureDim) < |perm|
      ensures perm[SlotIndex(k, c, featureDim)] == SlotIndex(order[k], c, featureDim)
    {
      PermutationIndicesSlot(indices, featureDim, k, c);
      assert indices[k] == indices[..|order|][k];
    }
    forall k: nat, c: nat | |order| <= k < ba.armatureSize && c < featureDim
      ensures SlotIndex(k, c, featureDim) < |perm| && perm[SlotIndex(k, c, featureDim)] == c
    {
      PermutationIndicesSlot(indices, featureDim, k, c);
      StrideIsProduct(0, featureDim);
    }
    if 1 <= featureDim && |order| + 2 <= ba.armatureSize {
      // Two unfilled joint positions both read slot 0 of joint 0.
      var a, b := SlotIndex(|order|, 0, featureDim), SlotIndex(|order| + 1, 0, featureDim);
      StrideMono(|order|, |order| + 1, featureDim);
      assert a < b < |perm| && perm[a] == perm[b];
    }
    if |order| == ba.armatureSize {
      assert indices == order by {
        assert indices[..|order|] == indices;
      }
      if IsPermutation(order, ba.armatureSize) {
        PermutationIndicesIsPermutation(indices, featureDim);
      }
      if featureDim == 1 {
        PermutationIndicesUnitDim(indices);
      }
    }
  }

  // ---------------------------------------------------------------------------
  // Two small skeletons
  // ---------------------------------------------------------------------------

  /** Child lists of a three-joint arena, unfolded. */
  lemma ChildrenOfSmall(pars: seq<int>, p: int)
    requires |pars| == 3 && ValidLinks(pars)
    ensures ChildrenOf(pars, p) ==
      (if pars[0] == p then [0] else []) + (if pars[1] == p then [1] else []) + (if pars[2] == p then [2] else [])
  {
    var c0 := if pars[0] == p then [0] else [];
    var c1 := if pars[1] == p then [1] else [];
    var c2 := if pars[2] == p then [2] else [];
    assert ChildrenBelow(pars, p, 1) == c0 by { assert [] + c0 == c0; }
    assert ChildrenBelow(pars, p, 2) == c0 + c1;
    assert ChildrenBelow(pars, p, 3) == c0 + c1 + c2;
  }

  lemma SubtreeOfLeaf(pars: seq<int>, j: nat, fuel: nat)
    requires ValidLinks(pars) && j < |pars| && ChildrenOf(pars, j) == []
    ensures Subtree(pars, j, fuel) == Node(j, [])
  {
  }

  lemma SubtreeOfOne(pars: seq<int>, j: nat, fuel: nat, a: nat)
    requires ValidLinks(pars) && j < |pars| && 0 < fuel && ChildrenOf(pars, j) == [a]
    ensures a < |pars|
    ensures Subtree(pars, j, fuel) == Node(j, [Subtree(pars, a, fuel - 1)])
  {
    assert a in ChildrenOf(pars, j);
  }

  lemma SubtreeOfTwo(pars: seq<int>, j: nat, fuel: nat, a: nat, b: nat)
    requires ValidLinks(pars) && j < |pars| && 0 < fuel && ChildrenOf(pars, j) == [a, b]
    ensures a < |pars| && b < |pars|
    ensures Subtree(pars, j, fuel) == Node(j, [Subtree(pars, a, fuel - 1), Subtree(pars, b, fuel - 1)])
  {
    assert a in ChildrenOf(pars, j) && b in ChildrenOf(pars, j);
  }

  lemma ChainBlock()
    ensures Shrink(Node(0, [Node(1, [Node(2, [])])])) == KinematicBlock([0, 1, 2], [])
  {
    var leaf := Node(2, []);
    var bl := Shrink(leaf);
    assert bl == KinematicBlock([2], []);
    var bm := Shrink(Node(1, [leaf]));
    assert bm == KinematicBlock([1] + bl.joints, bl.kids);
    assert [1] + bl.joints == [1, 2];
    assert Shrink(Node(0, [Node(1, [leaf])])) == KinematicBlock([0] + bm.joints, bm.kids);
    assert [0] + bm.joints == [0, 1, 2];
  }

  /** A three-joint chain 0 - 1 - 2, the links the records (0, -1), (1, 0),
      (2, 1) give, shrinks into one block holding all three joints. */
  lemma ChainShrinksToOneBlock(pars: seq<int>)
    requires pars == [-1, 0, 1]
    ensures ValidLinks(pars)
    ensures Shrink(Subtree(pars, 0, 3)) == KinematicBlock([0, 1, 2], [])
  {
    assert ValidLinks(pars);
    var leaf := Subtree(pars, 2, 1);
    assert leaf == Node(2, []) by {
      ChildrenOfSmall(pars, 2);
      SubtreeOfLeaf(pars, 2, 1);
    }
    var mid := Subtree(pars, 1, 2);
    assert mid == Node(1, [leaf]) by {
      ChildrenOfSmall(pars, 1);
      SubtreeOfOne(pars, 1, 2, 2);
    }
    assert Subtree(pars, 0, 3) == Node(0, [mid]) by {
      ChildrenOfSmall(pars, 0);
      SubtreeOfOne(pars, 0, 3, 1);
    }
    ChainBlock();
  }

  lemma BranchBlocks()
    ensures var root := Shrink(Node(0, [Node(1, []), Node(2, [])]));
      && root == KinematicBlock([0], [KinematicBlock([1], []), KinematicBlock([2], [])])
      && |Blocks(root)| == 3
  {
    var t := Node(0, [Node(1, []), Node(2, [])]);
    assert Shrink(t.kids[0]) == KinematicBlock([1], []);
    assert Shrink(t.kids[1]) == KinematicBlock([2], []);
    var root := Shrink(t);
    assert root.kids == [KinematicBlock([1], []), KinematicBlock([2], [])];
    assert |Blocks(root.kids[0])| == 1 && |Blocks(root.kids[1])| == 1;
    assert root.kids[2..] == [];
    assert |BlocksOf(root.kids[1..])| == 1;
  }

  /** A root with two leaf children, the links the records (0, -1), (1, 0),
      (2, 0) give, makes three one-joint blocks: the root's block and one child
      block per leaf, in child order. */
  lemma BranchShrinksToThreeBlocks(pars: seq<int>)
    requires pars == [-1, 0, 0]
    ensures ValidLinks(pars)
    ensures var root := Shrink(Subtree(pars, 0, 3));
      && root == KinematicBlock([0], [KinematicBlock([1], []), KinematicBlock([2], [])])
      && |Blocks(root)| == 3
  {
    assert ValidLinks(pars);
    var l1 := Subtree(pars, 1, 2);
    assert l1 == Node(1, []) by {
      ChildrenOfSmall(pars, 1);
      SubtreeOfLeaf(pars, 1, 2);
    }
    var l2 := Subtree(pars, 2, 2);
    assert l2 == Node(2, []) by {
      ChildrenOfSmall(pars, 2);
      SubtreeOfLeaf(pars, 2, 2);
    }
    assert Subtree(pars, 0, 3) == Node(0, [l1, l2]) by {
      ChildrenOfSmall(pars, 0);
      SubtreeOfTwo(pars, 0, 3, 1, 2);
    }
    BranchBlocks();
  }
}

=== FILE: bone.dfy ===
/** The pose data of one bone: a local and a global scale-rotate-translate state,
    laid out as 16-byte-aligned rows of 32-bit floats, and the isometric views the
    armature code takes of the leading fields of each half.
    A float "slot" below is one 4-byte float; a 16-byte row is four slots. */
module Bone {
  import opened Seqs

  datatype Quaternion = Quaternion(x: real, y: real, z: real, w: real)
  datatype Vector3 = Vector3(x: real, y: real, z: real)

  /** One half of a bone: rotation, translation (plus its homogeneous padding),
      scaling and length. */
  datatype BoneState = BoneState(
    rotation: Quaternion,
    translation: Vector3,
    tw: real,
    scaling: Vector3,
    length: real)

  /** `local` holds the Lcl* fields, `global` the Gbl* fields. */
  datatype Bone = Bone(local: BoneState, global: BoneState)

  /** A rotation + translation pair. */
  datatype IsometricTransform = IsometricTransform(rotation: Quaternion, translation: Vector3)

  /** The declared fields of a bone, in declaration order. */
  datatype Field =
    | LclRotation | LclTranslation | LclTw | LclScaling | LclLength
    | GblRotation | GblTranslation | GblTw | GblScaling | GblLength

  /** Position of a field in the declaration. */
  function Rank(f: Field): (n: nat)
  {
    match f
    case LclRotation => 0
    case LclTranslation => 1
    case LclTw => 2
    case LclScaling => 3
    case LclLength => 4
    case GblRotation => 5
    case GblTranslation => 6
    case GblTw => 7
    case GblScaling => 8
    case GblLength => 9
  }

  /** The field declared just before `f`. */
  function Previous(f: Field): (g: Field)
    requires !f.LclRotation?
    ensures Rank(g) + 1 == Rank(f)
  {
    match f
    case LclTranslation => LclRotation
    case LclTw => LclTranslation
    case LclScaling => LclTw
    case LclLength => LclScaling
    case GblRotation => LclLength
    case GblTranslation => GblRotation
    case GblTw => GblTranslation
    case GblScaling => GblTw
    case GblLength => GblScaling
  }

  /** Number of float slots a field occupies. */
  function Width(f: Field): (w: nat)
  {
    match f
    case LclRotation | GblRotation => 4
    case LclTranslation | GblTranslation | LclScaling | GblScaling => 3
    case LclTw | GblTw | LclLength | GblLength => 1
  }

  /** Whether the field carries the 16-byte alignment attribute. */
  predicate Aligned(f: Field)
  {
    f.LclRotation? || f.LclTranslation? || f.LclScaling? ||
    f.GblRotation? || f.GblTranslation? || f.GblScaling?
  }

  /** Round `n` up to a whole 16-byte row. */
  function AlignUp(n: nat): (m: nat)
  {
    if n % 4 == 0 then n else n + (4 - n % 4)
  }

  /** Slot offset of a field, by the C++ layout rule: an aligned field starts at
      the next row boundary after its predecessor, any other field right after it. */
  function OffsetOf(f: Field): (r: nat)
    decreases Rank(f)
  {
    if f.LclRotation? then 0
    else
      var g := Previous(f);
      var end := OffsetOf(g) + Width(g);
      if Aligned(f) then AlignUp(end) else end
  }

  /** The offsets the rule gives, field by field. */
  lemma {:induction false} BoneOffsets()
    ensures OffsetOf(LclRotation) == 0 && OffsetOf(LclTranslation) == 4
    ensures OffsetOf(LclTw) == 7 && OffsetOf(LclScaling) == 8 && OffsetOf(LclLength) == 11
    ensures OffsetOf(GblRotation) == 12 && OffsetOf(GblTranslation) == 16
    ensures OffsetOf(GblTw) == 19 && OffsetOf(GblScaling) == 20 && OffsetOf(GblLength) == 23
  {
    assert OffsetOf(LclTranslation) == 4;
    assert OffsetOf(LclTw) == 7;
    assert OffsetOf(LclScaling) == 8;
    assert OffsetOf(LclLength) == 11;
    assert OffsetOf(GblRotation) == 12;
    assert OffsetOf(GblTranslation) == 16;
    assert OffsetOf(GblTw) == 19;
    assert OffsetOf(GblScaling) == 20;
    assert OffsetOf(GblLength) == 23;
  }

  /** sizeof(Bone) in slots: the end of the last field rounded up to the struct's 16-byte alignment. */
  function LayoutSlots(): (n: nat)
  {
    AlignUp(OffsetOf(GblLength) + Width(GblLength))
  }

  /** Slot size of an IsometricTransform. The type is not defined in this code;
      the size is the one the header's static assertion requires it to have (the
      offset at which GblRotation begins), not one derived from its fields. */
  const IsometricTransformSlots: nat := 12

  function QuaternionSlots(q: Quaternion): (r: seq<real>) { [q.x, q.y, q.z, q.w] }
  function Vector3Slots(v: Vector3): (r: seq<real>) { [v.x, v.y, v.z] }

  function StateSlots(s: BoneState): (r: seq<real>)
    ensures |r| == 12
    ensures r[0] == s.rotation.x && r[1] == s.rotation.y && r[2] == s.rotation.z && r[3] == s.rotation.w
    ensures r[4] == s.translation.x && r[5] == s.translation.y && r[6] == s.translation.z
  {
    QuaternionSlots(s.rotation) + Vector3Slots(s.translation) + [s.tw] +
    Vector3Slots(s.scaling) + [s.length]
  }

  /** sizeof(Bone) is 24 slots. */
  lemma LayoutSize()
    ensures LayoutSlots() == 24
  {
    BoneOffsets();
  }

  /** The bone as it sits in memory: one float per slot, no padding. */
  function BoneSlots(b: Bone): (r: seq<real>)
    ensures |r| == LayoutSlots()
    ensures r[..12] == StateSlots(b.local) && r[12..] == StateSlots(b.global)
  {
    LayoutSize();
    StateSlots(b.local) + StateSlots(b.global)
  }

  /** The value of one field, as slots. */
  function FieldSlots(b: Bone, f: Field): (r: seq<real>)
    ensures |r| == Width(f)
  {
    match f
    case LclRotation => QuaternionSlots(b.local.rotation)
    case LclTranslation => Vector3Slots(b.local.translation)
    case LclTw => [b.local.tw]
    case LclScaling => Vector3Slots(b.local.scaling)
    case LclLength => [b.local.length]
    case GblRotation => QuaternionSlots(b.global.rotation)
    case GblTranslation => Vector3Slots(b.global.translation)
    case GblTw => [b.global.tw]
    case GblScaling => Vector3Slots(b.global.scaling)
    case GblLength => [b.global.length]
  }

  /** Each field of the flat bone sits exactly at the offset the alignment rule gives it. */
  lemma FieldAtItsOffset(b: Bone, f: Field)
    ensures OffsetOf(f) + Width(f) <= |BoneSlots(b)|
    ensures BoneSlots(b)[OffsetOf(f)..OffsetOf(f) + Width(f)] == FieldSlots(b, f)
  {
    if Rank(f) < 5 {
      LocalFieldAtItsOffset(b, f);
    } else {
      GlobalFieldAtItsOffset(b, f);
    }
  }

  /** FieldAtItsOffset for a field of the local half, one case per field. */
  lemma LocalFieldAtItsOffset(b: Bone, f: Field)
    requires Rank(f) < 5
    ensures OffsetOf(f) + Width(f) <= |BoneSlots(b)|
    ensures BoneSlots(b)[OffsetOf(f)..OffsetOf(f) + Width(f)] == FieldSlots(b, f)
  {
    BoneOffsets();
    var r := BoneSlots(b);
    StateFields(b.local);
    match f
    case LclRotation => assert r[0..4] == r[..12][0..4];
    case LclTranslation => assert r[4..7] == r[..12][4..7];
    case LclTw => assert r[7..8] == r[..12][7..8];
    case LclScaling => assert r[8..11] == r[..12][8..11];
    case LclLength => assert r[11..12] == r[..12][11..12];
  }

  /** FieldAtItsOffset for a field of the global half, one case per field. */
  lemma GlobalFieldAtItsOffset(b: Bone, f: Field)
    requires Rank(f) >= 5
    ensures OffsetOf(f) + Width(f) <= |BoneSlots(b)|
    ensures BoneSlots(b)[OffsetOf(f)..OffsetOf(f) + Width(f)] == FieldSlots(b, f)
  {
    BoneOffsets();
    LayoutSize();
    var r := BoneSlots(b);
    StateFields(b.global);
    match f
    case GblRotation => assert r[12..16] == r[12..][0..4];
    case GblTranslation => assert r[16..19] == r[12..][4..7];
    case GblTw => assert r[19..20] == r[12..][7..8];
    case GblScaling => assert r[20..23] == r[12..][8..11];
    case GblLength => assert r[23..24] == r[12..][11..12];
  }

  /** Where each field of one half sits in that half's slots. */
  lemma StateFields(s: BoneState)
    ensures StateSlots(s)[0..4] == QuaternionSlots(s.rotation)
    ensures StateSlots(s)[4..7] == Vector3Slots(s.translation)
    ensures StateSlots(s)[7..8] == [s.tw]
    ensures StateSlots(s)[8..11] == Vector3Slots(s.scaling)
    ensures StateSlots(s)[11..12] == [s.length]
  {
  }

  /** The global half begins right after one isometric transform, as the header's
      static assertion requires. */
  lemma GlobalHalfFollowsIsometricTransform()
    ensures OffsetOf(GblRotation) == IsometricTransformSlots
  {
    BoneOffsets();
  }

  /** Reinterpret the slots starting at `at` as an isometric transform: a quaternion
      in the first row, a translation in the second. That field order is assumed,
      as the views in the header take it; it is not derived from the type. */
  function ViewIsometric(slots: seq<real>, at: nat): (t: IsometricTransform)
    requires at + 7 <= |slots|
  {
    IsometricTransform(
      Quaternion(slots[at], slots[at + 1], slots[at + 2], slots[at + 3]),
      Vector3(slots[at + 4], slots[at + 5], slots[at + 6]))
  }

  /** The view LocalTransform() takes of the start of the bone. */
  function LocalTransform(b: Bone): (t: IsometricTransform)
    ensures t.rotation == b.local.rotation && t.translation == b.local.translation
  {
    LayoutSize();
    var slots := BoneSlots(b);
    assert slots[..12][0..7] == slots[0..7];
    ViewIsometric(slots, 0)
  }

  /** The view GlobalTransform() takes at the GblRotation field. */
  function GlobalTransform(b: Bone): (t: IsometricTransform)
    ensures t.rotation == b.global.rotation && t.translation == b.global.translation
  {
    GlobalHalfFollowsIsometricTransform();
    LayoutSize();
    var slots := BoneSlots(b);
    assert forall k :: 0 <= k < 7 ==> slots[12 + k] == slots[12..][k];
    ViewIsometric(slots, OffsetOf(GblRotation))
  }

  /** The number of floats per bone that the header declares. */
  const BoneWidthAsWritten: nat := 28

  /** The declared width overruns a bone: reading BoneWidthAsWritten floats from
      the start of one bone reads four floats past its end. */
  lemma BoneWidthAsWrittenOverrunsBone(b: Bone)
    ensures |BoneSlots(b)| + 4 == BoneWidthAsWritten
  {
    LayoutSize();
  }

  /** The number of floats per bone that matches the layout: the header's
      BoneWidth, corrected. */
  const CorrectedBoneWidth: nat := 24

  /** CorrectedBoneWidth floats starting at a bone are exactly that bone. */
  lemma BoneWidthMatchesLayout(b: Bone)
    ensures |BoneSlots(b)| == CorrectedBoneWidth
  {
    LayoutSize();
  }

  /** A pose buffer as one flat float array: the bones of a frame stored back to
      back, each as the floats of its struct. */
  function FrameSlots(frame: seq<Bone>): (r: seq<real>)
  {
    Concat(seq(|frame|, i requires 0 <= i < |frame| => BoneSlots(frame[i])))
  }

  /** The buffer holds CorrectedBoneWidth floats per bone, and slot k of bone i
      sits at i * CorrectedBoneWidth + k: the stride a flat view of a frame must use. */
  lemma FrameSlotsAt(frame: seq<Bone>, i: nat, k: nat)
    requires i < |frame| && k < CorrectedBoneWidth
    ensures |FrameSlots(frame)| == |frame| * CorrectedBoneWidth
    ensures FrameSlots(frame)[i * CorrectedBoneWidth + k] == BoneSlots(frame[i])[k]
  {
    LayoutSize();
    var rows := seq(|frame|, j requires 0 <= j < |frame| => BoneSlots(frame[j]));
    ConcatStrided(rows, CorrectedBoneWidth, i, k);
    StrideIsProduct(|frame|, CorrectedBoneWidth);
    StrideIsProduct(i, CorrectedBoneWidth);
  }
}

=== FILE: character.dfy ===
/** The action and frame state machine of a character: which animation is
    playing and at what time, the update lock that brackets writes to the
    current frame and snapshots the previous one, the sizing guards of the
    velocity frame, and the render flags. */
module Character {
  import opened Wrappers
  import opened Bone

  /** An animation clip of the behavior space. Sampling it at a time is done by
      code outside this model and is passed to Update as a function. */
  datatype Animation = Animation(name: string)

  /** The per-bone velocity record; only its linear part is written here. */
  datatype BoneVelocity = BoneVelocity(linear: Vector3, angular: Vector3)

  const ZeroVector := Vector3(0.0, 0.0, 0.0)
  const DefaultVelocity := BoneVelocity(ZeroVector, ZeroVector)

  /** A render model as far as the character cares: whether it exposes the
      skinning interface. */
  datatype RenderModel = RenderModel(skinnable: bool)

  datatype RenderFlag = Skinable | OpaqueObjects

  datatype CharacterObject = CharacterObject(
    behavier: map<string, Animation>,
    armatureSize: nat,
    currentAction: Option<Animation>,
    currentActionTime: real,
    loopCurrentAction: bool,
    currentFrame: seq<Bone>,
    lastFrame: seq<Bone>,
    velocityFrame: seq<BoneVelocity>,
    updateLock: bool,
    isAutoDisplacement: bool,
    skinModel: Option<RenderModel>,
    renderModel: Option<RenderModel>)

  /** CurrentActionName: the playing animation's name, or "" when none plays. */
  function CurrentActionName(c: CharacterObject): (name: string)
    ensures c.currentAction.None? ==> name == ""
    ensures c.currentAction.Some? ==> name == c.currentAction.value.name
  {
    match c.currentAction
    case None => ""
    case Some(a) => a.name
  }

  /** StartAction: look the key up in the behavior space; an unknown key
      changes nothing and reports false; a known one starts that animation at
      `beginTime` with the given loop flag and reports true. The transition
      time is accepted and ignored. */
  function StartAction(c: CharacterObject, key: string, beginTime: real, loop: bool, transitionTime: real)
    : (r: (CharacterObject, bool))
    ensures r.1 <==> key in c.behavier
    ensures !r.1 ==> r.0 == c
    ensures r.1 ==> r.0 == c.(currentAction := Some(c.behavier[key]),
                               currentActionTime := beginTime,
                               loopCurrentAction := loop)
    ensures r.1 ==> CurrentActionName(r.0) == c.behavier[key].name
  {
    if key !in c.behavier then (c, false)
    else (c.(currentAction := Some(c.behavier[key]),
             currentActionTime := beginTime,
             loopCurrentAction := loop), true)
  }

  /** StopAction: no action plays and looping is off; always reports true. */
  function StopAction(c: CharacterObject, transitionTime: real): (r: (CharacterObject, bool))
    ensures r.1
    ensures r.0 == c.(currentAction := None, loopCurrentAction := false)
    ensures CurrentActionName(r.0) == ""
  {
    (c.(currentAction := None, loopCurrentAction := false), true)
  }

  /** MapCurrentFrameForUpdate: take the update lock and snapshot the current
      frame as the last frame; the caller then writes the current frame. */
  function MapCurrentFrameForUpdate(c: CharacterObject): (r: (CharacterObject, seq<Bone>))
    ensures r.0.updateLock
    ensures r.0.lastFrame == c.currentFrame && r.1 == c.currentFrame
    ensures r.0 == c.(updateLock := true, lastFrame := c.currentFrame)
  {
    (c.(updateLock := true, lastFrame := c.currentFrame), c.currentFrame)
  }

  /** ReleaseCurrentFrameFrorUpdate: drop the update lock. */
  function ReleaseCurrentFrameForUpdate(c: CharacterObject): (r: CharacterObject)
    ensures !r.updateLock && r == c.(updateLock := false)
  {
    c.(updateLock := false)
  }

  /** Mapping then releasing keeps everything but the snapshot, so an unlocked
      character returns unlocked with the last frame equal to the current one. */
  lemma MapReleaseSnapshots(c: CharacterObject)
    requires !c.updateLock
    ensures ReleaseCurrentFrameForUpdate(MapCurrentFrameForUpdate(c).0) == c.(lastFrame := c.currentFrame)
  {
  }

  /** The action part of Update: when an animation plays, advance its time by
      the delta, and under the update lock snapshot the current frame and
      resample it at the new time; with no animation, nothing changes. */
  function UpdateAction(c: CharacterObject, timeDelta: real, sample: (Animation, real) -> seq<Bone>)
    : (r: CharacterObject)
    ensures c.currentAction.None? ==> r == c
    ensures c.currentAction.Some? ==>
      && r.currentActionTime == c.currentActionTime + timeDelta
      && r.lastFrame == c.currentFrame
      && r.currentFrame == sample(c.currentAction.value, c.currentActionTime + timeDelta)
      && !r.updateLock
      && r.currentAction == c.currentAction && r.loopCurrentAction == c.loopCurrentAction
      && r.velocityFrame == c.velocityFrame
    ensures c.currentAction.Some? ==>
      r == c.(currentActionTime := c.currentActionTime + timeDelta,
              lastFrame := c.currentFrame,
              currentFrame := sample(c.currentAction.value, c.currentActionTime + timeDelta),
              updateLock := false)
  {
    match c.currentAction
    case None => c
    case Some(action) =>
      var advanced := c.(currentActionTime := c.currentActionTime + timeDelta);
      var (mapped, _) := MapCurrentFrameForUpdate(advanced);
      var sampled := mapped.(currentFrame := sample(action, advanced.currentActionTime));
      ReleaseCurrentFrameForUpdate(sampled)
  }

  /** The frames ComputeVelocityFrame reads and writes cover the armature: it
      indexes the current and last frames, and a non-empty velocity frame, by
      every joint. */
  ghost predicate VelocityInputsFit(c: CharacterObject)
  {
    |c.lastFrame| == 0 ||
      (&& |c.currentFrame| >= c.armatureSize
       && |c.lastFrame| >= c.armatureSize
       && (|c.velocityFrame| == 0 || |c.velocityFrame| >= c.armatureSize))
  }

  /** What ComputeVelocityFrame makes of `c`: nothing changes when there is no
      last frame; otherwise only the velocity frame changes. It is sized to the
      armature when it was empty, each joint's linear velocity comes from its
      current and last global translation, each joint's angular velocity is
      kept (zero for a fresh frame), and entries past the armature are kept. */
  ghost predicate VelocityFrameFrom(c: CharacterObject, r: CharacterObject, timeDelta: real,
                                    velocity: (Vector3, Vector3, real) -> Vector3)
    requires VelocityInputsFit(c)
  {
    if |c.lastFrame| == 0 then r == c
    else
      && r == c.(velocityFrame := r.velocityFrame)
      && |r.velocityFrame| == (if |c.velocityFrame| == 0 then c.armatureSize else |c.velocityFrame|)
      && (forall i :: 0 <= i < c.armatureSize ==>
            r.velocityFrame[i].linear == velocity(c.currentFrame[i].global.translation,
                                                  c.lastFrame[i].global.translation, timeDelta))
      && (|c.velocityFrame| == 0 ==>
            forall i :: 0 <= i < c.armatureSize ==> r.velocityFrame[i].angular == ZeroVector)
      && (|c.velocityFrame| != 0 ==>
            && (forall i :: 0 <= i < c.armatureSize ==> r.velocityFrame[i].angular == c.velocityFrame[i].angular)
            && (forall i :: c.armatureSize <= i < |c.velocityFrame| ==> r.velocityFrame[i] == c.velocityFrame[i]))
  }

  /** ComputeVelocityFrame: nothing when there is no last frame; otherwise an
      empty velocity frame is first sized to the armature, then each joint's
      linear velocity is computed from its global translation in the current
      and last frames. The vector arithmetic is the `velocity` parameter. */
  method ComputeVelocityFrame(c: CharacterObject, timeDelta: real, velocity: (Vector3, Vector3, real) -> Vector3)
    returns (r: CharacterObject)
    requires VelocityInputsFit(c)
    ensures |c.lastFrame| == 0 ==> r == c
    ensures |c.lastFrame| != 0 ==>
      && r == c.(velocityFrame := r.velocityFrame)
      && |r.velocityFrame| == (if |c.velocityFrame| == 0 then c.armatureSize else |c.velocityFrame|)
      && (forall i :: 0 <= i < c.armatureSize ==>
            r.velocityFrame[i].linear == velocity(c.currentFrame[i].global.translation,
                                                  c.lastFrame[i].global.translation, timeDelta))
    ensures |c.lastFrame| != 0 && |c.velocityFrame| == 0 ==>
      forall i :: 0 <= i < c.armatureSize ==> r.velocityFrame[i].angular == ZeroVector
    ensures |c.lastFrame| != 0 && |c.velocityFrame| != 0 ==>
      && (forall i :: 0 <= i < c.armatureSize ==> r.velocityFrame[i].angular == c.velocityFrame[i].angular)
      && (forall i :: c.armatureSize <= i < |c.velocityFrame| ==> r.velocityFrame[i] == c.velocityFrame[i])
    ensures VelocityFrameFrom(c, r, timeDelta, velocity)
  {
    if |c.lastFrame| == 0 {
      return c;
    }
    var vframe := c.velocityFrame;
    if |vframe| == 0 {
      vframe := seq(c.armatureSize, _ => DefaultVelocity);
    }
    ghost var sized := vframe;
    for i := 0 to c.armatureSize
      invariant |vframe| == |sized|
      invariant forall k :: 0 <= k < i ==>
        vframe[k] == sized[k].(linear := velocity(c.currentFrame[k].global.translation,
                                                  c.lastFrame[k].global.translation, timeDelta))
      invariant forall k :: i <= k < |vframe| ==> vframe[k] == sized[k]
    {
      var disp := velocity(c.currentFrame[i].global.translation, c.lastFrame[i].global.translation, timeDelta);
      vframe := vframe[i := vframe[i].(linear := disp)];
    }
    r := c.(velocityFrame := vframe);
  }

  /** Update, without the ground displacement and the skinning upload: the
      action part, then, when auto-displacement is on, ComputeVelocityFrame on
      the character the action part leaves behind. */
  method Update(c: CharacterObject, timeDelta: real, sample: (Animation, real) -> seq<Bone>,
                velocity: (Vector3, Vector3, real) -> Vector3)
    returns (r: CharacterObject)
    requires c.isAutoDisplacement ==> VelocityInputsFit(UpdateAction(c, timeDelta, sample))
    ensures r.currentAction == c.currentAction && r.loopCurrentAction == c.loopCurrentAction
    ensures r.currentActionTime == c.currentActionTime + (if c.currentAction.Some? then timeDelta else 0.0)
    ensures c.currentAction.None? ==> r.updateLock == c.updateLock
    ensures c.currentAction.Some? ==> !r.updateLock
    ensures c.currentAction.Some? ==> r.lastFrame == c.currentFrame
    ensures !c.isAutoDisplacement ==> r == UpdateAction(c, timeDelta, sample)
    ensures r == UpdateAction(c, timeDelta, sample).(velocityFrame := r.velocityFrame)
    ensures c.isAutoDisplacement ==> VelocityFrameFrom(UpdateAction(c, timeDelta, sample), r, timeDelta, velocity)
  {
    r := UpdateAction(c, timeDelta, sample);
    if c.isAutoDisplacement {
      r := ComputeVelocityFrame(r, timeDelta, velocity);
    }
  }

  /** EnabeAutoDisplacement: set the auto-displacement flag; the rest of the
      modelled state is kept. */
  function EnableAutoDisplacement(c: CharacterObject, enable: bool): (r: CharacterObject)
    ensures r.isAutoDisplacement == enable && r == c.(isAutoDisplacement := enable)
  {
    c.(isAutoDisplacement := enable)
  }

  /** GetRenderFlags: always opaque, and skinnable exactly when a skinning
      model is attached. */
  function GetRenderFlags(c: CharacterObject): (flags: set<RenderFlag>)
    ensures OpaqueObjects in flags
    ensures Skinable in flags <==> c.skinModel.Some?
  {
    if c.skinModel.Some? then {Skinable, OpaqueObjects} else {OpaqueObjects}
  }

  /** The state after SetRenderModel together with the error it raises. The
      skinning model is replaced before the check, so a mesh without the
      skinning interface leaves the character without a skinning model and
      with its previous render model, and raises. */
  datatype Outcome = Outcome(state: CharacterObject, error: Option<string>)

  const NotSkinnableError := "Render model doesn't support Skinning interface."

  function SetRenderModel(c: CharacterObject, mesh: Option<RenderModel>): (r: Outcome)
    ensures r.error.Some? <==> mesh.Some? && !mesh.value.skinnable
    ensures r.error.Some? ==> r.error.value == NotSkinnableError && r.state == c.(skinModel := None)
    ensures r.error.None? ==> r.state.renderModel == mesh
    ensures r.error.None? ==> (r.state.skinModel.Some? <==> mesh.Some?)
    ensures r.error.None? ==> r.state == c.(skinModel := mesh, renderModel := mesh)
    ensures r.state.skinModel.Some? ==> r.state.skinModel.value.skinnable
  {
    var skin := if mesh.Some? && mesh.value.skinnable then mesh else None;
    var c1 := c.(skinModel := skin);
    if skin.None? && mesh.Some? then Outcome(c1, Some(NotSkinnableError))
    else Outcome(c1.(renderModel := mesh), None)
  }

  /** Attaching a skinnable mesh makes the character render as skinned;
      detaching the mesh makes it plain opaque. */
  lemma RenderFlagsFollowModel(c: CharacterObject, mesh: Option<RenderModel>)
    requires SetRenderModel(c, mesh).error.None?
    ensures Skinable in GetRenderFlags(SetRenderModel(c, mesh).state) <==> mesh.Some?
  {
  }
}

=== FILE: seqs.dfy ===
/** Facts about sequences of natural numbers used as index lists: distinctness,
    permutations of 0..m-1 and flattening of nested sequences. */
module Seqs {

  /** No value occurs twice in `s`. */
  ghost predicate Distinct(s: seq<nat>)
  {
    forall i, j :: 0 <= i < j < |s| ==> s[i] != s[j]
  }

  /** Every element of `s` lies in 0..m-1. */
  ghost predicate Bounded(s: seq<nat>, m: nat)
  {
    forall i :: 0 <= i < |s| ==> s[i] < m
  }

  /** `s` is a permutation of 0, 1, ..., m-1. */
  ghost predicate IsPermutation(s: seq<nat>, m: nat)
  {
    |s| == m && Distinct(s) && Bounded(s, m)
  }

  /** The set {0, ..., m-1}. */
  function Range(m: nat): (r: set<nat>)
    ensures forall v: nat :: v in r <==> v < m
  {
    if m == 0 then {} else Range(m - 1) + {m - 1}
  }

  function Elems(s: seq<nat>): (r: set<nat>)
    ensures forall v :: v in r <==> v in s
  {
    set v | v in s
  }

  lemma {:induction false} RangeCard(m: nat)
    ensures |Range(m)| == m
  {
    if m > 0 {
      RangeCard(m - 1);
    }
  }

  lemma {:induction false} DistinctCard(s: seq<nat>)
    requires Distinct(s)
    ensures |Elems(s)| == |s|
  {
    if s != [] {
      var t := s[1..];
      assert Distinct(t) by {
        forall i, j | 0 <= i < j < |t| ensures t[i] != t[j] {
          assert t[i] == s[i + 1] && t[j] == s[j + 1];
        }
      }
      DistinctCard(t);
      assert s[0] !in t by {
        forall i | 0 <= i < |t| ensures t[i] != s[0] {
          assert t[i] == s[i + 1];
        }
      }
      assert Elems(s) == Elems(t) + {s[0]} by {
        assert s == [s[0]] + t;
      }
    }
  }

  lemma SubsetCard(a: set<nat>, b: set<nat>)
    requires a <= b
    ensures |a| <= |b|
  {
    assert b == a + (b - a);
  }

  /** Pigeonhole: distinct values below m are at most m in number. */
  lemma DistinctBoundedLength(s: seq<nat>, m: nat)
    requires Distinct(s) && Bounded(s, m)
    ensures |s| <= m
  {
    DistinctCard(s);
    RangeCard(m);
    SubsetCard(Elems(s), Range(m));
  }

  /** A permutation of 0..m-1 contains every value below m. */
  lemma PermutationCovers(s: seq<nat>, m: nat)
    requires IsPermutation(s, m)
    ensures forall v: nat :: v < m <==> v in s
  {
    DistinctCard(s);
    RangeCard(m);
    SubsetCard(Range(m) - Elems(s), Range(m));
    assert Elems(s) == Range(m) by {
      assert Range(m) == Elems(s) + (Range(m) - Elems(s));
    }
  }

  /** A distinct list that contains every value below m and nothing else is a permutation. */
  lemma CoveringDistinctIsPermutation(s: seq<nat>, m: nat)
    requires Distinct(s) && Bounded(s, m)
    requires forall v: nat :: v < m ==> v in s
    ensures IsPermutation(s, m)
  {
    DistinctBoundedLength(s, m);
    DistinctCard(s);
    RangeCard(m);
    SubsetCard(Range(m), Elems(s));
  }

  /** Concatenation of a list of lists. */
  function Concat<T>(ss: seq<seq<T>>): (r: seq<T>)
  {
    if ss == [] then [] else ss[0] + Concat(ss[1..])
  }

  lemma {:induction false} ConcatAppend<T>(ss: seq<seq<T>>, t: seq<T>)
    ensures Concat(ss + [t]) == Concat(ss) + t
  {
    if ss != [] {
      assert (ss + [t])[1..] == ss[1..] + [t];
      ConcatAppend(ss[1..], t);
    }
  }

  lemma {:induction false} ConcatSplit<T>(a: seq<seq<T>>, b: seq<seq<T>>)
    ensures Concat(a + b) == Concat(a) + Concat(b)
    decreases |a|
  {
    if a == [] {
      assert a + b == b;
    } else {
      assert (a + b)[1..] == a[1..] + b;
      ConcatSplit(a[1..], b);
    }
  }

  /** `n` runs of width `w` laid end to end, counted by repeated addition:
      the offset of run `n`, i.e. n * w. */
  function Stride(n: nat, w: nat): (s: nat)
  {
    if n == 0 then 0 else w + Stride(n - 1, w)
  }

  lemma {:induction false} StrideIsProduct(n: nat, w: nat)
    ensures Stride(n, w) == n * w
  {
    if n > 0 {
      StrideIsProduct(n - 1, w);
      assert n * w == w + (n - 1) * w;
    }
  }

  /** Later runs start no earlier, and run `a` ends by the start of any later run. */
  lemma {:induction false} StrideMono(a: nat, b: nat, w: nat)
    requires a < b
    ensures Stride(a, w) + w <= Stride(b, w)
    decreases b
  {
    if a + 1 < b {
      StrideMono(a, b - 1, w);
    }
  }

  /** Lists of one common width `w` concatenate to a strided array: element k
      of list i sits at offset Stride(i, w) + k. */
  lemma {:induction false} ConcatStrided<T>(ss: seq<seq<T>>, w: nat, i: nat, k: nat)
    requires forall j :: 0 <= j < |ss| ==> |ss[j]| == w
    requires i < |ss| && k < w
    ensures |Concat(ss)| == Stride(|ss|, w)
    ensures Stride(i, w) + k < |Concat(ss)| && Concat(ss)[Stride(i, w) + k] == ss[i][k]
    decreases i
  {
    ConcatUniformLength(ss, w);
    var tail := Concat(ss[1..]);
    assert Concat(ss) == ss[0] + tail;
    if i > 0 {
      ConcatStrided(ss[1..], w, i - 1, k);
    }
  }

  lemma {:induction false} ConcatUniformLength<T>(ss: seq<seq<T>>, w: nat)
    requires forall j :: 0 <= j < |ss| ==> |ss[j]| == w
    ensures |Concat(ss)| == Stride(|ss|, w)
  {
    if ss != [] {
      ConcatUniformLength(ss[1..], w);
    }
  }
}

=== FILE: shadow_map_generation.dfy ===
/** The configuration side of the shadow-map generation effect: the skinning
    weight count, the alpha-discard texture and the fill mode select one of 16
    shader permutations, which the constant tables map to one of 8 vertex
    shaders and one of 4 pixel shaders; plus the validated setters and the
    bone-palette upload. */
module ShadowMapGeneration {
  import opened Wrappers

  const MaxBones: nat := 72
  const VertexShaderCount: nat := 8
  const PixelShaderCount: nat := 4
  const ShaderPermutationCount: nat := 16

  datatype FillMode = DepthFill | SolidColorFill | BoneColorFill

  /** An opaque shader-resource handle for the alpha-discard texture. */
  type Texture = nat

  /** A row-major 4x4 matrix is 16 reals; a stored bone constant is a 3x4
      matrix, 12 reals, row-major. */
  function Entry4x4(m: seq<real>, row: nat, col: nat): (x: real)
    requires |m| == 16 && row < 4 && col < 4
  {
    m[row * 4 + col]
  }

  function Entry3x4(m: seq<real>, row: nat, col: nat): (x: real)
    requires |m| == 12 && row < 3 && col < 4
  {
    m[row * 4 + col]
  }

  const Identity3x4: seq<real> := [1.0, 0.0, 0.0, 0.0,  0.0, 1.0, 0.0, 0.0,  0.0, 0.0, 1.0, 0.0]

  /** XMStoreFloat3x4 of XMMatrixTranspose(m): the first three rows of the
      transpose, i.e. the first three columns of `m`. */
  function TransposeTo3x4(m: seq<real>): (t: seq<real>)
    requires |m| == 16
    ensures |t| == 12
    ensures forall row: nat, col: nat :: row < 3 && col < 4 ==> Entry3x4(t, row, col) == Entry4x4(m, col, row)
  {
    [m[0], m[4], m[8], m[12],
     m[1], m[5], m[9], m[13],
     m[2], m[6], m[10], m[14]]
  }

  /** The state the shader selection and the bone palette depend on. */
  datatype Effect = Effect(
    weightsPerVertex: int,
    fillMode: FillMode,
    texture: Option<Texture>,
    bones: seq<seq<real>>)

  /** What the setters keep true: a weight count the shaders exist for and a
      full palette of 3x4 bone constants. */
  ghost predicate Valid(e: Effect)
  {
    && e.weightsPerVertex in {0, 1, 2, 4}
    && |e.bones| == MaxBones
    && forall i :: 0 <= i < |e.bones| ==> |e.bones[i]| == 12
  }

  /** A new effect: no skinning, depth fill, no alpha-discard texture, and
      every bone constant the identity. */
  function NewEffect(): (e: Effect)
    ensures Valid(e)
    ensures e.weightsPerVertex == 0 && e.fillMode == DepthFill && e.texture == None
    ensures forall i :: 0 <= i < |e.bones| ==> e.bones[i] == Identity3x4
    ensures ShaderPermutation(e) == 0
  {
    Effect(0, DepthFill, None, seq(MaxBones, _ => Identity3x4))
  }

  /** GetCurrentShaderPermutation. A weight count the setter would refuse
      (3, or above 4) falls back to the no-bone base 0. */
  function ShaderPermutation(e: Effect): (p: int)
    ensures 0 <= e.weightsPerVertex ==> 0 <= p < ShaderPermutationCount
    ensures e.weightsPerVertex == 3 || e.weightsPerVertex > 4 ==> p % 4 == 0
  {
    var base := if e.weightsPerVertex == 4 then 3
                else if e.weightsPerVertex <= 2 then e.weightsPerVertex
                else 0;
    base
      + (if e.texture.Some? then 4 else 0)
      + (if e.fillMode == SolidColorFill then 8 else 0)
  }

  /** The base permutation of a weight count: its position in 0, 1, 2, 4. */
  function WeightsSlot(w: int): (s: nat)
    requires w in {0, 1, 2, 4}
    ensures s < 4
    ensures w == [0, 1, 2, 4][s]
  {
    if w == 4 then 3 else w
  }

  /** The permutation is in range and encodes the configuration: the low two
      bits give the weight count, bit 2 the texture, bit 3 solid fill. */
  lemma ShaderPermutationDecodes(e: Effect)
    requires Valid(e)
    ensures 0 <= ShaderPermutation(e) < ShaderPermutationCount
    ensures ShaderPermutation(e) % 4 == WeightsSlot(e.weightsPerVertex)
    ensures (ShaderPermutation(e) / 4) % 2 == 1 <==> e.texture.Some?
    ensures ShaderPermutation(e) / 8 == 1 <==> e.fillMode == SolidColorFill
  {
  }

  /** Two valid configurations get the same permutation exactly when they agree
      on weight count, texture presence and whether the fill is solid. */
  lemma ShaderPermutationInjective(e1: Effect, e2: Effect)
    requires Valid(e1) && Valid(e2)
    ensures ShaderPermutation(e1) == ShaderPermutation(e2) <==>
      && e1.weightsPerVertex == e2.weightsPerVertex
      && e1.texture.Some? == e2.texture.Some?
      && (e1.fillMode == SolidColorFill) == (e2.fillMode == SolidColorFill)
  {
    ShaderPermutationDecodes(e1);
    ShaderPermutationDecodes(e2);
  }

  // ---------------------------------------------------------------------------
  // Shader tables
  // ---------------------------------------------------------------------------

  const VertexShaderBytecode: seq<string> := [
    "ShadowMapGen_VS_NoBone", "ShadowMapGen_VS_OneBone",
    "ShadowMapGen_VS_TwoBone", "ShadowMapGen_VS_FourBone",
    "ShadowMapGen_VS_NoBoneTex", "ShadowMapGen_VS_OneBoneTex",
    "ShadowMapGen_VS_TwoBoneTex", "ShadowMapGen_VS_FourBoneTex"]

  const VertexShaderIndices: seq<nat> := [0, 1, 2, 3, 4, 5, 6, 7, 0, 1, 2, 3, 4, 5, 6, 7]

  const PixelShaderBytecode: seq<string> := [
    "ShadowMapGen_PS_DepthNoTex", "ShadowMapGen_PS_DepthTex",
    "ShadowMapGen_PS_ColorNoTex", "ShadowMapGen_PS_ColorTex"]

  const PixelShaderIndices: seq<nat> := [0, 0, 0, 0, 1, 1, 1, 1, 2, 2, 2, 2, 3, 3, 3, 3]

  /** The vertex shader of permutation `p`: the fill mode does not matter. */
  function VertexShaderIndex(p: nat): (v: nat)
    requires p < ShaderPermutationCount
    ensures v == p % 8 && v < VertexShaderCount
  {
    VertexShaderIndices[p]
  }

  /** The pixel shader of permutation `p`: the weight count does not matter. */
  function PixelShaderIndex(p: nat): (v: nat)
    requires p < ShaderPermutationCount
    ensures v == p / 4 && v < PixelShaderCount
  {
    PixelShaderIndices[p]
  }

  /** The vertex shader the effect uses. */
  function VertexShaderOf(e: Effect): (name: string)
    requires Valid(e)
    ensures name == VertexShaderBytecode[ShaderPermutation(e) % 8]
  {
    ShaderPermutationDecodes(e);
    VertexShaderBytecode[VertexShaderIndex(ShaderPermutation(e))]
  }

  /** The pixel shader the effect uses. */
  function PixelShaderOf(e: Effect): (name: string)
    requires Valid(e)
    ensures name == PixelShaderBytecode[ShaderPermutation(e) / 4]
  {
    ShaderPermutationDecodes(e);
    PixelShaderBytecode[PixelShaderIndex(ShaderPermutation(e))]
  }

  function BoneCountWord(w: int): (word: string)
  {
    if w == 0 then "NoBone" else if w == 1 then "OneBone" else if w == 2 then "TwoBone" else "FourBone"
  }

  /** The vertex shader written for a configuration, named from its parts. */
  function ExpectedVertexShader(e: Effect): (name: string)
  {
    "ShadowMapGen_VS_" + BoneCountWord(e.weightsPerVertex) + (if e.texture.Some? then "Tex" else "")
  }

  /** The pixel shader written for a configuration, named from its parts. */
  function ExpectedPixelShader(e: Effect): (name: string)
  {
    "ShadowMapGen_PS_" + (if e.fillMode == SolidColorFill then "Color" else "Depth")
      + (if e.texture.Some? then "Tex" else "NoTex")
  }

  /** The vertex table picks the skinning shader for the weight count, and
      its texture variant when an alpha-discard texture is set. */
  lemma VertexShaderMatchesConfiguration(e: Effect)
    requires Valid(e)
    ensures VertexShaderOf(e) == ExpectedVertexShader(e)
  {
    ShaderPermutationDecodes(e);
    var v := VertexShaderIndex(ShaderPermutation(e));
    var suffix := if e.texture.Some? then "Tex" else "";
    assert v == WeightsSlot(e.weightsPerVertex) + (if e.texture.Some? then 4 else 0);
    assert VertexShaderBytecode[v] == "ShadowMapGen_VS_" + BoneCountWord(e.weightsPerVertex) + suffix by {
      VertexShaderNames(e.weightsPerVertex, e.texture.Some?);
    }
  }

  /** Entry `WeightsSlot(w) + 4 * texture` of the vertex table, by name. */
  lemma VertexShaderNames(w: int, textured: bool)
    requires w in {0, 1, 2, 4}
    ensures VertexShaderBytecode[WeightsSlot(w) + (if textured then 4 else 0)]
      == "ShadowMapGen_VS_" + BoneCountWord(w) + (if textured then "Tex" else "")
  {
    if textured {
      if w == 0 { assert "ShadowMapGen_VS_" + "NoBone" + "Tex" == "ShadowMapGen_VS_NoBoneTex"; }
      else if w == 1 { assert "ShadowMapGen_VS_" + "OneBone" + "Tex" == "ShadowMapGen_VS_OneBoneTex"; }
      else if w == 2 { assert "ShadowMapGen_VS_" + "TwoBone" + "Tex" == "ShadowMapGen_VS_TwoBoneTex"; }
      else { assert "ShadowMapGen_VS_" + "FourBone" + "Tex" == "ShadowMapGen_VS_FourBoneTex"; }
    } else {
      if w == 0 { assert "ShadowMapGen_VS_" + "NoBone" + "" == "ShadowMapGen_VS_NoBone"; }
      else if w == 1 { assert "ShadowMapGen_VS_" + "OneBone" + "" == "ShadowMapGen_VS_OneBone"; }
      else if w == 2 { assert "ShadowMapGen_VS_" + "TwoBone" + "" == "ShadowMapGen_VS_TwoBone"; }
      else { assert "ShadowMapGen_VS_" + "FourBone" + "" == "ShadowMapGen_VS_FourBone"; }
    }
  }

  /** The pixel table picks the color shader exactly under solid fill (bone-color
      fill draws with the depth shader), and its texture variant exactly when an
      alpha-discard texture is set. */
  lemma PixelShaderMatchesConfiguration(e: Effect)
    requires Valid(e)
    ensures PixelShaderOf(e) == ExpectedPixelShader(e)
  {
    ShaderPermutationDecodes(e);
    var v := PixelShaderIndex(ShaderPermutation(e));
    assert v == (if e.texture.Some? then 1 else 0) + (if e.fillMode == SolidColorFill then 2 else 0);
    PixelShaderNames(e.fillMode == SolidColorFill, e.texture.Some?);
  }

  /** Entry `textured + 2 * solid` of the pixel table, by name. */
  lemma PixelShaderNames(solid: bool, textured: bool)
    ensures PixelShaderBytecode[(if textured then 1 else 0) + (if solid then 2 else 0)]
      == "ShadowMapGen_PS_" + (if solid then "Color" else "Depth") + (if textured then "Tex" else "NoTex")
  {
    if solid {
      if textured { assert "ShadowMapGen_PS_" + "Color" + "Tex" == "ShadowMapGen_PS_ColorTex"; }
      else { assert "ShadowMapGen_PS_" + "Color" + "NoTex" == "ShadowMapGen_PS_ColorNoTex"; }
    } else {
      if textured { assert "ShadowMapGen_PS_" + "Depth" + "Tex" == "ShadowMapGen_PS_DepthTex"; }
      else { assert "ShadowMapGen_PS_" + "Depth" + "NoTex" == "ShadowMapGen_PS_DepthNoTex"; }
    }
  }

  // ---------------------------------------------------------------------------
  // Setters
  // ---------------------------------------------------------------------------

  const WeightsError := "WeightsPerVertex must be 0, 1, 2, or 4"
  const BoneCountError := "count parameter out of range"

  /** SetWeightsPerVertex: only 0, 1, 2 and 4 are accepted; anything else
      raises out_of_range and the effect is left as it was. */
  function SetWeightsPerVertex(e: Effect, value: int): (r: Result<Effect, string>)
    ensures r.Ok? <==> value in {0, 1, 2, 4}
    ensures r.Ok? ==> r.value == e.(weightsPerVertex := value)
    ensures r.Err? ==> r.error == WeightsError
    ensures Valid(e) && r.Ok? ==> Valid(r.value)
  {
    if value != 0 && value != 1 && value != 2 && value != 4 then Err(WeightsError)
    else Ok(e.(weightsPerVertex := value))
  }

  /** SetShadowFillMode: only the fill mode changes, so only bit 3 of the
      permutation can change. */
  function SetShadowFillMode(e: Effect, mode: FillMode): (r: Effect)
    ensures r.fillMode == mode && r == e.(fillMode := mode)
    ensures ShaderPermutation(r) == ShaderPermutation(e)
      - (if e.fillMode == SolidColorFill then 8 else 0)
      + (if mode == SolidColorFill then 8 else 0)
    ensures Valid(e) ==> Valid(r)
  {
    e.(fillMode := mode)
  }

  /** SetAlphaDiscardTexture: a null texture pointer is allowed and turns the
      texture variant off. */
  function SetAlphaDiscardTexture(e: Effect, texture: Option<Texture>): (r: Effect)
    ensures r == e.(texture := texture)
    ensures ShaderPermutation(r) == ShaderPermutation(e)
      - (if e.texture.Some? then 4 else 0)
      + (if texture.Some? then 4 else 0)
    ensures Valid(e) ==> Valid(r)
  {
    e.(texture := texture)
  }

  /** DisableAlphaDiscard: drops the texture and with it the +4. */
  function DisableAlphaDiscard(e: Effect): (r: Effect)
    ensures r == e.(texture := None)
    ensures ShaderPermutation(r) == ShaderPermutation(e) - (if e.texture.Some? then 4 else 0)
    ensures Valid(e) ==> Valid(r) && PixelShaderOf(r) in {PixelShaderBytecode[0], PixelShaderBytecode[2]}
  {
    e.(texture := None)
  }

  /** SetBoneTransforms: more matrices than the palette holds raise
      out_of_range before anything is written; otherwise the first `count`
      bone constants become the transposed matrices and the rest are kept. */
  method SetBoneTransforms(e: Effect, values: seq<seq<real>>) returns (r: Result<Effect, string>)
    requires Valid(e)
    requires forall i :: 0 <= i < |values| ==> |values[i]| == 16
    ensures r.Err? <==> |values| > MaxBones
    ensures r.Err? ==> r.error == BoneCountError
    ensures r.Ok? ==> Valid(r.value)
    ensures r.Ok? ==> r.value == e.(bones := r.value.bones)
    ensures r.Ok? ==> forall i :: 0 <= i < |values| ==> r.value.bones[i] == TransposeTo3x4(values[i])
    ensures r.Ok? ==> forall i :: |values| <= i < MaxBones ==> r.value.bones[i] == e.bones[i]
  {
    if |values| > MaxBones {
      return Err(BoneCountError);
    }
    var bones := e.bones;
    for i := 0 to |values|
      invariant |bones| == MaxBones
      invariant forall k :: 0 <= k < i ==> bones[k] == TransposeTo3x4(values[k])
      invariant forall k :: i <= k < MaxBones ==> bones[k] == e.bones[k]
    {
      bones := bones[i := TransposeTo3x4(values[i])];
    }
    r := Ok(e.(bones := bones));
  }

  /** ResetBoneTransforms: every bone constant back to the identity. */
  method ResetBoneTransforms(e: Effect) returns (r: Effect)
    requires Valid(e)
    ensures Valid(r) && r == e.(bones := r.bones)
    ensures forall i :: 0 <= i < MaxBones ==> r.bones[i] == Identity3x4
  {
    var bones := e.bones;
    for i := 0 to MaxBones
      invariant |bones| == MaxBones
      invariant forall k :: 0 <= k < i ==> bones[k] == Identity3x4
      invariant forall k :: i <= k < MaxBones ==> |bones[k]| == 12
    {
      bones := bones[i := Identity3x4];
    }
    r := e.(bones := bones);
  }

  /** Uploading bones never changes which shaders are used. */
  lemma BonesDoNotAffectShaders(e: Effect, bones: seq<seq<real>>)
    ensures ShaderPermutation(e.(bones := bones)) == ShaderPermutation(e)
  {
  }
}

=== FILE: wrappers.dfy ===
/** Failure-carrying result types used for the source's exceptions and null returns. */
module Wrappers {

  /** A value that may be absent: the model of a possibly-null pointer. */
  datatype Option<+T> = None | Some(value: T)

  /** A successful value or the error the source throws instead. */
  datatype Result<+T, +E> = Ok(value: T) | Err(error: E)
}
